=== FILE: README.md ===
# US legal-status timeline visualizer: a Dafny model

The application draws a map of the United States coloured by the legal status
of some practice (cannabis, same-sex marriage, ...) in a chosen year. A
dataset gives each state a sparse list of `{year, status}` changes; a
timeline player steps the year forward; an upload box loads new datasets.
This project models four parts of it and proves properties of each:

- **Status resolution** (`TimelineTypes`): `getStatusForYear`, the
  last-change-at-or-before-year rule with its early `break`. It is specified
  by the qualifying prefix of the change list and compared with a reference
  definition, "the last qualifying change in list order". The two agree on sorted
  lists and differ on unsorted ones.
- **Dataset loading** (`Store`, `StoreRoundTrip`): `convertDatasetFormat`
  from the legacy `{title, data: [{state, events}]}` shape to the canonical
  `{factor, categories, states}` shape, followed by the structural
  validation and the commit step of `loadDatasetFile`. Parsed JSON is
  modelled as JavaScript values (`JsValues`). That model covers truthiness,
  the `TypeError` raised by reading a property of `null`/`undefined`,
  property order, and `String(v)` key coercion. Round trips show that a
  timeline written in either format loads back as the same typed timeline.
- **Timeline player** (`TimelinePlayer`): the play/pause/tick/speed/slider
  component as a deterministic state machine. Its invariant says there is at
  most one live interval, that it runs exactly while playing, and that a
  playing player is below the maximum year. The model proves that no tick
  ever requests a year above the maximum, that playback runs to the maximum
  and stops there, and what the control shows.
- **Map colours and legend** (`LegalMap`): the fill colour of each state and
  the two legend labels read from the dataset's categories.

`Wrappers` holds the `Option`, `Result` and `Outcome` types.

Points where the code and its documentation or tests disagree. The model
follows the code in each case:

- `convertDatasetFormat` rejects input that has both `data` and `states`, not
  only input that has neither. Its error text names only the second case.
- A `data` array may hold two records for the same state. The later record
  then replaces the earlier one (`ConvertStatesLaterWins`).
- The legacy status string `"legal"` is coded 2, but the map has a colour
  only for statuses 0 and 1. A state whose status resolves to 2 is therefore
  drawn in the status-0 colour (`StatusColor`). The map's own colour table
  and legend treat 1 as legal (components/LegalMap.tsx:14 and 76), so this is a mismatch between the two formats, not
  something the code guards against.
- A legacy file with a title and an empty `data` array passes validation.
  An empty array is truthy, so the file loads as a dataset with no states
  (`EmptyLegacyUploadLoads`).
- The interval callback's "beyond the maximum" branch cannot be reached
  while the invariant holds. The boundary effect stops playback as soon as
  the host reaches the maximum, so the last tick that fires requests exactly
  the maximum.

## Model

| member | source | states |
|---|---|---|
| TimelineTypes.QualifyingPrefix | lib/timelineTypes.ts:38-45 | the scan visits exactly the longest prefix of changes at or before the year: every change in it qualifies, and the change that ends it is later than the year |
| TimelineTypes.GetStatusForYear | lib/timelineTypes.ts:23-48 | a missing or empty state resolves to 0; otherwise the result is the status of the last change in the qualifying prefix, or 0 when that prefix is empty; before the first change it is 0; a non-zero result is the status of one of the state's changes |
| TimelineTypes.Scan | lib/timelineTypes.ts:38-45 | the loop's result is its starting status or the status of some change at or before the year, and it keeps the starting status when every change is later than the year |
| TimelineTypes.ScanIsLastOfPrefix | lib/timelineTypes.ts:36-47 | the loop with its `break` returns the status of the last change of the qualifying prefix, or its starting status when that prefix is empty |
| TimelineTypes.LastQualifying | lib/timelineTypes.ts:18-22 | reference definition from the documented rule: the result is 0 or the status of some change at or before the year |
| TimelineTypes.LastQualifyingOfPrefix | lib/timelineTypes.ts:18-22 | when every change after position k is later than the year, the documented rule picks the change just before k |
| TimelineTypes.SortedScanIsLastQualifying | lib/timelineTypes.ts:35-45 | on a list sorted by year, the scan with its early break agrees with the documented "last change at or before the year" rule |
| TimelineTypes.UnsortedScanStopsEarly | lib/timelineTypes.ts:38-45 | on the unsorted list 2000/2010/2005 at year 2007, the scan answers 1 while the documented rule answers 3 |
| TimelineTypes.BreakIgnoresRest | lib/timelineTypes.ts:41-44 | once a change later than the year is met, nothing after it affects the result, not even qualifying changes |
| TimelineTypes.LastChangeAtOrBeforeWins | lib/timelineTypes.ts:35-45 | on a sorted list, the last change at or before the year decides the status, so among changes in the same year the later one wins |
| TimelineTypes.StatusAtChangeYear | __tests__/timelineTypes.test.ts:91-96 | with strictly ascending years, each change's own year resolves to that change's status |
| TimelineTypes.StatusSticksAfterLastChange | __tests__/timelineTypes.test.ts:104-106 | on a sorted list, every year at or after the last change resolves to the last status |
| TimelineTypes.QualifyingPrefixMonotone | lib/timelineTypes.ts:38-45 | on a sorted list, a later year never qualifies fewer changes |
| TimelineTypes.SampleResolutionsNY | __tests__/timelineTypes.test.ts:8-105 | in the unit tests' dataset, NY resolves to 0 in every year before 1990 and then to 1, 2, 1 and 2 from each change year up to the next; this covers every NY year the tests name (1776, 1989, 1990, 1995, 2004, 2005, 2010, 2014, 2015, 2018, 2019, 2020, 2025, 2100) |
| TimelineTypes.SampleResolutionsOthers | __tests__/timelineTypes.test.ts:34-60 | in the unit tests' dataset, CA resolves to 0 in every year before 2000 and to 1 from 2000 on; AL, with an empty list, and XX, with no entry, resolve to 0 in every year; so does any state in a dataset with no states (lines 108-115) |
| JsValues.Truthy | lib/store.ts:17 | a value is falsy exactly when it is `undefined`, `null`, `false`, 0 or the empty string; arrays and objects, even empty ones, are truthy |
| JsValues.KeyString | lib/store.ts:27-35 | `String(v)` used as a property key, when it does not throw: a string is its own key; `undefined`, `null` and booleans become "undefined", "null", "true" and "false"; an object without its own `toString` becomes "[object Object]"; an empty array becomes ""; an integer becomes a minus sign exactly when negative, followed by digits with no leading zero (other than "0" itself) that read back as its magnitude |
| JsValues.KeyThrows | lib/store.ts:27-35 | `String(v)` throws exactly for an object with its own `toString` property and for an array holding such a value at any depth; strings, numbers, booleans, `null` and `undefined` never throw |
| JsValues.ElementsThrow | lib/store.ts:27-35 | `join` throws exactly when some element's conversion throws |
| JsValues.ArrayKeyIsJoin | lib/store.ts:27-35 | an array's key is the comma join of its elements' keys, with `null` and `undefined` elements becoming empty |
| JsValues.KeyStringCons | lib/store.ts:27-35 | an array's key is its first element's key, then a comma and the rest's key when more elements follow |
| JsValues.KeyStringMixedArray | lib/store.ts:27-35 | `String(["a", null, -3])` is "a,,-3" |
| JsValues.KeyStringSingleton | lib/store.ts:27-35 | a one-element array whose element is neither `null` nor `undefined` names the same key as its element |
| JsValues.NatToString | lib/store.ts:35 | `String(n)` for a natural number is a non-empty string of digits without a leading zero whose decimal reading is n |
| JsValues.NatToStringInjective | lib/store.ts:35 | distinct natural numbers print differently |
| JsValues.IntToString | lib/store.ts:35 | `String(n)` for an integer starts with a minus sign exactly when n is negative, and the digits after any sign have no leading zero (other than "0" itself) and read back as the magnitude of n |
| JsValues.CanonicalDigitsUnique | lib/store.ts:35 | a digit string without a leading zero is the only such string for its value: it equals `NatToString` of that value |
| JsValues.IntToStringUnique | lib/store.ts:35 | any string made of an optional minus sign and canonical digits that reads back as n is exactly `String(n)` |
| JsValues.NumKeyIsDecimalString | lib/store.ts:35 | a numeric state name and the string of its decimal digits (for example 7 and "7") name the same property, so the later record overwrites the earlier one |
| JsValues.IntToStringInjective | lib/store.ts:35 | distinct integers print differently, so distinct numeric state names give distinct keys |
| JsValues.Lookup | lib/store.ts:17 | a property read gives `undefined` for a missing key, and the stored value for a key the object has |
| JsValues.GetAbsent | lib/store.ts:17 | a property read on a value that is not an object gives `undefined`, and so does a read of a key the object lacks |
| JsValues.GetField | lib/store.ts:17 | on an object with distinct keys, a read of a key it has gives the stored value |
| JsValues.Put | lib/store.ts:35 | an assignment keeps keys distinct and makes the key read back as the new value; a new key is appended at the end; for an existing key every position keeps its key and only a field under that key changes value |
| JsValues.PutLookupOther | lib/store.ts:35 | an assignment leaves every other key's value unchanged |
| JsValues.PutAll | lib/store.ts:26-36 | a series of assignments keeps every existing key, at its position, and adds at most one key per assignment |
| JsValues.PutAllKeys | lib/store.ts:26-36 | after a series of assignments, the keys present are exactly the old keys and the assigned ones |
| JsValues.PutAllDistinct | lib/store.ts:26-36 | a series of assignments never creates duplicate keys |
| JsValues.PutAllLaterWins | lib/store.ts:26-36 | the value under a key is the one written by the last assignment to it |
| JsValues.PutAllUntouched | lib/store.ts:26-36 | a key that no assignment names keeps its value |
| JsValues.PutAllFresh | lib/store.ts:26-36 | assignments of fresh, distinct keys append them in order |
| JsValues.ObjectEntries | lib/store.ts:87 | `Object.entries` lists an object's own properties in order; an array's elements under the keys "0", "1", ...; a string's characters, each as a one-character string, under the same index keys; and nothing for numbers and booleans; it is not defined on `null` and `undefined`, where it throws |
| Store.Message | lib/store.ts:45-94 | both format errors begin "Invalid dataset format - ", and the per-state errors name the state |
| Store.CodeStatus | lib/store.ts:30-32 | a string status is coded 0..2, with 2 exactly for "legal" and 1 exactly for "medical"; a non-string status passes through unchanged |
| Store.ConvertedEvent | lib/store.ts:28-34 | the converted event reads back the original year and the coded status, and carries `sources` exactly when the original's is truthy |
| Store.ConvertEvents | lib/store.ts:28-34 | mapping over the events succeeds exactly when no event is null or undefined, and converts each one in place |
| Store.ConvertState | lib/store.ts:26-35 | a record converts exactly when it is not nullish, its `events` is an array of non-nullish events and `String(state)` does not throw; a `state` whose conversion throws gives a TypeError; the key is `String(state)` and the value is the converted events |
| Store.ConvertStateList | lib/store.ts:26-36 | the list conversion succeeds exactly when every record converts; otherwise it fails with a TypeError, and on success it gives each record's conversion in order |
| Store.ConvertStates | lib/store.ts:23-36 | building `states` succeeds exactly when every record converts, fails only with a TypeError, and yields distinct keys |
| Store.ConvertStatesKeys | lib/store.ts:26-36 | the keys of `states` are exactly the converted records' state names |
| Store.ConvertStatesLaterWins | lib/store.ts:35 | for a repeated state name, the last record with that name provides the stored events |
| Store.LegacyFactor | lib/store.ts:39 | the legacy factor is always truthy: `factor` when truthy, else `title` when truthy, else "Legal Status" |
| Store.ConvertDatasetFormat | lib/store.ts:13-46 | nullish input throws a TypeError; canonical input passes through unchanged; input with both or neither of `data`/`states` is rejected; legacy input converts exactly when `data` is an array whose records all convert, and otherwise throws a TypeError; every success is an object with truthy `states`, and a legacy success carries the converted states, the legacy factor, and the given or default categories |
| Store.WellTypedEvent | lib/store.ts:93 | an event that passes the `typeof` test is an object that has both a `year` and a `status` property |
| Store.ValidateEvents | lib/store.ts:92-96 | the events pass exactly when each has a numeric year and status; each is then read as a typed change; a failure is a TypeError or names the state |
| Store.ValidateEventsFirstFailure | lib/store.ts:92-96 | the events are checked in order: the first event that fails decides the error, a TypeError for a null or undefined event and the per-state event error otherwise |
| Store.ValidateEntriesFirstFailure | lib/store.ts:87-97 | the states are checked in order: the first state that fails decides the error, the events error when its value is not an array and its first bad event's error otherwise |
| Store.ValidateEntries | lib/store.ts:87-97 | the states pass exactly when every entry is an array of valid events; a named error names an entry of `states` |
| Store.ValidateEntriesKeys | lib/store.ts:87-97 | the typed timeline has exactly the keys of `states` |
| Store.ValidateEntriesValues | lib/store.ts:87-97 | with distinct keys, each state's typed change list is its validated events |
| Store.ValidateDataset | lib/store.ts:81-97 | a falsy factor or states gives the "missing factor or states" error; otherwise validation succeeds exactly when every state entry is valid; factor, categories and state keys are carried over |
| Store.LoadDatasetFile | lib/store.ts:73-104 | a load commits exactly when conversion and validation both succeed, and then stores the converted dataset with the year reset to 2020; a failure leaves the store unchanged and reports the conversion error when conversion throws, and otherwise the validation error |
| StoreRoundTrip.ConvertedEventFixpoint | lib/store.ts:28-34 | an event with a numeric year and status converts to itself |
| StoreRoundTrip.ConvertEncodedEvents | lib/store.ts:28-34 | canonical event lists convert to themselves |
| StoreRoundTrip.ValidateEncodedEvents | lib/store.ts:92-96 | encoding a typed change list and validating it gives back the same list |
| StoreRoundTrip.ConvertLegacyRecord | lib/store.ts:26-35 | a legacy record converts to the property for its state name, holding its encoded changes |
| StoreRoundTrip.ConvertLegacyList | lib/store.ts:26-36 | every legacy record converts, each to its canonical property, in order |
| StoreRoundTrip.ConvertLegacyData | lib/store.ts:23-36 | with distinct state names, the legacy `data` array converts to the canonical `states` object |
| StoreRoundTrip.ValidateCanonicalStates | lib/store.ts:87-97 | the canonical `states` object validates to the timeline its entries list |
| StoreRoundTrip.CanonicalPassesThrough | lib/store.ts:16-19 | a canonical file passes through conversion unchanged |
| StoreRoundTrip.CanonicalRoundTrip | lib/store.ts:81-97 | a canonical file with a non-empty factor validates to exactly the timeline, factor and categories it lists |
| StoreRoundTrip.ValidateObject | lib/store.ts:81-97 | an object with a truthy factor and valid states validates to its factor, its categories and the states' typed timeline |
| StoreRoundTrip.LegacyOutput | lib/store.ts:22-42 | legacy input whose records all convert yields the object of the legacy factor, the given or default categories, and the converted states, in that order |
| StoreRoundTrip.ConvertRawChange | lib/store.ts:28-34 | an uploaded event with a numeric year and a string or numeric status converts to the canonical event of its coded change |
| StoreRoundTrip.ConvertRawEvents | lib/store.ts:28-34 | a list of such events converts to the canonical events of the coded changes |
| StoreRoundTrip.ConvertRawRecord | lib/store.ts:26-35 | an uploaded record converts to the property named by its state, holding its coded changes |
| StoreRoundTrip.ConvertRawData | lib/store.ts:23-36 | with distinct state names, the uploaded `data` array converts to the canonical `states` of the coded entries |
| StoreRoundTrip.LegacyFileConverts | lib/store.ts:22-42 | a legacy file with any factor, title and categories, distinct state names, numeric years and string or numeric statuses converts to its legacy factor, its given or default categories, and the coded states |
| StoreRoundTrip.LegacyFileLoads | lib/store.ts:73-99 | such a file loads: the store commits it with the year reset to 2020, and it validates to the timeline of the coded entries |
| StoreRoundTrip.LegacyConvertsToCanonical | lib/store.ts:22-42 | a legacy file with distinct state names and no factor, title or categories converts to the canonical file of the same entries, with the default factor and categories |
| StoreRoundTrip.LegacyRoundTrip | lib/store.ts:73-99 | such a legacy file loads as the timeline it lists |
| StoreRoundTrip.LoadLegacyCommits | lib/store.ts:99 | loading such a legacy file commits it and resets the year to 2020 |
| StoreRoundTrip.ConvertedEventValidates | lib/store.ts:28-34 | a legacy event with a numeric year and a string or numeric status converts to an event that passes validation, with its status coded |
| StoreRoundTrip.InvalidUploadKeepsDataset | cypress/e2e/timeline.cy.ts:71-89 | uploading `{"invalid": "data"}` fails with the format error, whose message begins "Invalid dataset format", and leaves the store unchanged |
| StoreRoundTrip.LoadReportsFirstBadState | lib/store.ts:86-103 | a canonical file whose states fail validation is rejected with the first failing state's error, and the store keeps its dataset |
| StoreRoundTrip.ValidateDatasetEntriesFail | lib/store.ts:82-97 | with a truthy factor and truthy states, the first failing state entry's error is the validation error |
| StoreRoundTrip.StringEntriesFail | lib/store.ts:87-90 | the entries of a non-empty string are its characters, and the first one, under key "0", fails the array check |
| StoreRoundTrip.StringStatesRejected | lib/store.ts:82-90 | a dataset whose `states` is the string "ab" is rejected with the events error for state "0" |
| StoreRoundTrip.ToStringStateRejected | lib/store.ts:26-35 | a record whose `state` is `{"toString": 1}`, or an array holding it, makes the upload fail with a TypeError and leaves the store as it was |
| StoreRoundTrip.EmptyLegacyUploadLoads | lib/store.ts:22-42 | a file with a title and an empty `data` array converts and validates to a dataset with no states, and the load commits it |
| UploadScenario.MarriageTimelineCoded | cypress/e2e/file-upload.cy.ts:13-30 | the marriage upload's three records, each one "legal" change, code to a timeline with status 2 at 2003, 2013 and 2011 |
| UploadScenario.MarriageUploadLoads | cypress/e2e/file-upload.cy.ts:13-54 | the marriage upload loads, with its own factor, the default categories and three states |
| UploadScenario.MarriageDrawsLegalAsIllegal | components/LegalMap.tsx:12-39 | in 2013 Massachusetts resolves to status 2 and gets the status-0 colour, the same as a state with no data; the FIPS code "25" that the map looks up for its shape is not a key of the name-keyed dataset, so the shape gets the status-0 colour too |
| TimelinePlayer.TickBody | components/TimelinePlayer.tsx:41-54 | each firing of the interval requests exactly one year, never above the maximum |
| TimelinePlayer.Step | components/TimelinePlayer.tsx:30-106 | every event preserves the invariant; an unmounted player does nothing; ticks request the next year, or the maximum and a stop, or nothing without a timer; play starts one timer and pause clears it, and neither changes the year or the speed; a host year below the maximum only replaces the year, and one at the maximum also stops playback; a speed change replaces the timer while playing and keeps the year and the playing flag; the slider passes its year on; unmount clears the timer |
| TimelinePlayer.BoundaryEffect | components/TimelinePlayer.tsx:92-100 | the effect changes nothing unless the player is playing at or above the maximum, and then stops playback and clears the timer; afterwards a playing player is below the maximum; year, speed and mount state are kept |
| TimelinePlayer.MountSatisfiesInv | components/TimelinePlayer.tsx:18-20 | a freshly mounted player satisfies the invariant |
| TimelinePlayer.RunPreservesInv | components/TimelinePlayer.tsx:30-100 | the invariant holds after any sequence of events |
| TimelinePlayer.RunNeverExceedsMax | components/TimelinePlayer.tsx:41-54 | when the slider stays within its range, no sequence of events requests a year above the maximum |
| TimelinePlayer.PausedPlayerIsSilent | components/TimelinePlayer.tsx:31-37 | a player with no live timer requests nothing, however many periods pass |
| TimelinePlayer.PlayPauseStopsAdvancing | __tests__/TimelinePlayer.test.tsx:139-158 | after play and then pause, no number of periods requests any year |
| TimelinePlayer.PlaysToMaximum | components/TimelinePlayer.tsx:41-100 | playing with a host that accepts every request emits each following year up to the maximum, then stops with the timer cleared and the invariant intact |
| TimelinePlayer.PlayToThePresentScenario | components/TimelinePlayer.tsx:41-54 | playing from 1900 with maximum 1903 requests 1901, 1902 and 1903, and later periods request nothing |
| TimelinePlayer.EndOfTimelineScenario | __tests__/TimelinePlayer.test.tsx:163-213 | from 2022 with maximum 2023, one period requests 2023; at 2023 the button reads "Play", is disabled and the caption reports the maximum; at 2020 the button is enabled again |
| TimelinePlayer.Render | components/TimelinePlayer.tsx:115-207 | the button is disabled exactly when the year is at or above the maximum and reads "Pause" while playing and "Play" otherwise; the caption shows the speed exactly while playing, and otherwise reports the maximum exactly when the year is at or above it and invites play below it; under the invariant the button is never disabled while playing |
| TimelinePlayer.CaptionText | components/TimelinePlayer.tsx:196-207 | the playing caption reads "Playing at ", digits that read back as the speed, and "x"; the other two captions are "Reached maximum year" and "Play or drag to scrub" |
| TimelinePlayer.CaptionTextInjective | components/TimelinePlayer.tsx:196-207 | different captions, including different speeds, never show the same text |
| LegalMap.StatusColor | components/LegalMap.tsx:12-20 | status 1 gets the legal colour, and every other status, including 2, falls back to the status-0 colour |
| LegalMap.GeographyFill | components/LegalMap.tsx:35-39 | a state is drawn in the legal colour exactly when the last change in its qualifying prefix set status 1 |
| LegalMap.NoDataIsIllegalColor | components/LegalMap.tsx:35-39 | a state with no entry, an empty list, or a year before its first change is drawn in the status-0 colour |
| LegalMap.FillSticksAfterLastChange | components/LegalMap.tsx:35-39 | on a sorted list, a state keeps the colour of its last status from the year of its last change on |
| LegalMap.FirstWithValue | components/LegalMap.tsx:70-72 | `find` returns the first category whose value is strictly equal to the status, or no category |
| LegalMap.LegendLabel | components/LegalMap.tsx:64-85 | falsy categories, no category with that value, or a first matching category whose key is empty give the default label; otherwise the first matching key is shown, and any other label is a matching category key |
| LegalMap.DefaultCategoriesLegend | lib/store.ts:40 | with the default categories, the legend reads "Illegal" for status 0 and "Medical" for status 1 |
| LegalMap.EmptyCategoriesLegend | components/LegalMap.tsx:70-84 | empty categories leave both default labels |

## Left out

- Reading the file (`file.text()`) and `JSON.parse` are left out. The model starts from the parsed value. Malformed JSON text, which makes the parse throw, is therefore outside the model.
- The page (`src/app/page.tsx`), the dataset list, and the store's plain setters (`setYear`, `setDataset`, `setSelectedDatasetId`, `setAvailableDatasets`, `setLoading`) are left out. They are one-line assignments or layout.
- Map geometry, the projection, the FIPS lookup on each shape, JSX, CSS classes and the legend heading are left out. They are presentation only.
- The `convert-topojson` script and the Cypress configuration are left out. They are build and test tooling.
- Numbers are integers. NaN, fractions and ±Infinity are not modelled, and neither is the `parseInt` the slider applies to an integer string.
- JsValues.IntToString: JavaScript numbers are doubles, so integers above 2^53 lose precision and `String(n)` switches to exponent form from 10^21 on ("1e+21"). The model prints every integer in plain decimal digits.
- The `console.error` call on a failed load (lib/store.ts:101) is left out. It is logging only, and the error is rethrown as modelled.
- JsValues.ObjectEntries: JavaScript lists array-index keys ("0" to "4294967294", such as the FIPS codes "10" to "56") first, in numeric order, and only then the other keys in insertion order. The model keeps pure insertion order, so it differs for an object that holds an array-index key after another key, for example `{"01": ..., "10": ...}`, where JavaScript lists "10" first.
- Store.ValidateEntriesFirstFailure: follows the insertion order of `JsValues.ObjectEntries`. When several states fail and one of them has an array-index key, the program reports the numerically smallest such key first; for `{factor: "f", states: {"01": 5, "10": 5}}` it reports state 10, and the model reports state 01.
- StoreRoundTrip.LoadReportsFirstBadState: names the first failing state in insertion order, so the same difference applies.
- LegalMap.LegendLabel: `find` runs over `Object.entries`, so among several categories with the same value and an array-index key the program may pick a different first match.
- JsValues.Put: an assignment to the key `"__proto__"` (`states[stateName] = events` at lib/store.ts:35 with a record whose `state` is "__proto__") replaces the object's prototype in JavaScript and adds no key. The model, like `Store.ConvertStates`, adds an ordinary key.
- Properties inherited from `Object.prototype` (`data.constructor`, for example) are not modelled. A missing property reads as `undefined`. An own `toString` on a state name, which shadows the inherited one and makes the key conversion throw, is modelled (`KeyThrows`).
- TimelinePlayer.Step: timer periods (`1000 / speed` milliseconds) are abstract. A `Tick` is the live interval firing, and wall-clock time and the slider's percentage styling (floating point) are not modelled.
- TimelinePlayer.Step: the maximum year is a fixed parameter. It is not read from the clock, and the interval callback's stale closure over an older `maxYear` is not modelled.
- TimelinePlayer.Step: an interval that leaks because it was started while the ref still held a live one is only counted. Its own ticks are not modelled, and the invariant shows that no such leak occurs.
- An end-to-end upload test expects the year to be reset to 1776 after a load. The store resets it to 2020, and the model follows the store (`LoadDatasetFile`).
- The player's unit tests expect the text "Playing - Auto-advancing", which the component does not render. The model follows the rendered "Playing at Nx" caption.
- LegalMap.LegendLabel: `categories[key]` is read through the entry list of `Object.entries`. For objects with repeated keys, which `JSON.parse` never produces, this can differ from a property read.
- Store.ValidateDataset: `categories` is carried along as an opaque value, as the loader never checks it.

=== FILE: jsvalues.dfy ===
/**
 A JavaScript value as `JSON.parse` and the loader's object literals produce it.

 Only the parts of JavaScript semantics that the dataset loader and the legend
 rely on are modelled: truthiness, property reads, `Object.entries`, and the
 string coercion a value undergoes when it is used as a property key.
 */
module JsValues {

  /** `Absent` is `undefined`: what a read of a missing property yields.
      Numbers are modelled as integers (no fractions, NaN or infinities). */
  datatype JsValue =
    | Absent
    | Null
    | Bool(b: bool)
    | Num(n: int)
    | Str(s: string)
    | Arr(items: seq<JsValue>)
    | Obj(fields: seq<Field>)

  /** One own property of an object, in insertion order. */
  datatype Field = Field(key: string, val: JsValue)

  /** JavaScript truthiness: `undefined`, `null`, `false`, `0` and `""` are falsy;
      every array and object, even an empty one, is truthy. */
  predicate Truthy(v: JsValue): (b: bool)
    ensures b <==> !(v == Absent || v == Null || v == Bool(false) || v == Num(0) || v == Str(""))
  {
    match v
    case Absent => false
    case Null => false
    case Bool(b) => b
    case Num(n) => n != 0
    case Str(s) => s != ""
    case Arr(_) => true
    case Obj(_) => true
  }

  /** Reading any property of these throws a TypeError. */
  predicate IsNullish(v: JsValue) {
    v.Absent? || v.Null?
  }

  /** Objects built by `JSON.parse` and by property assignment never repeat a key. */
  predicate DistinctKeys(fields: seq<Field>) {
    forall i, j :: 0 <= i < j < |fields| ==> fields[i].key != fields[j].key
  }

  /** Position of the first field named `key`, or `|fields|` if there is none. */
  function FindKey(fields: seq<Field>, key: string): (i: nat)
    ensures i <= |fields|
    ensures i < |fields| ==> fields[i].key == key
    ensures forall j :: 0 <= j < i ==> fields[j].key != key
  {
    if |fields| == 0 then 0
    else if fields[0].key == key then 0
    else 1 + FindKey(fields[1..], key)
  }

  predicate HasKey(fields: seq<Field>, key: string) {
    exists i :: 0 <= i < |fields| && fields[i].key == key
  }

  /** `obj[key]` on an object's own properties; `undefined` when missing. */
  function Lookup(fields: seq<Field>, key: string): (r: JsValue)
    ensures !HasKey(fields, key) ==> r == Absent
    ensures forall i :: 0 <= i < |fields| && fields[i].key == key && DistinctKeys(fields) ==> r == fields[i].val
  {
    var i := FindKey(fields, key);
    if i < |fields| then fields[i].val else Absent
  }

  /** `v.key` for a value that is not nullish. Only objects carry the properties the
      model reads (`data`, `states`, `factor`, `events`, `year`, ...); on strings,
      numbers, booleans and arrays every such read yields `undefined`. */
  function Get(v: JsValue, key: string): JsValue
  {
    if v.Obj? then Lookup(v.fields, key) else Absent
  }

  /** Reading a property of a non-object, or one the object lacks, gives `undefined`. */
  lemma GetAbsent(v: JsValue, key: string)
    requires !v.Obj? || !HasKey(v.fields, key)
    ensures Get(v, key) == Absent
  {
  }

  /** Reading a property an object with distinct keys has gives its value. */
  lemma GetField(v: JsValue, key: string, i: nat)
    requires v.Obj? && DistinctKeys(v.fields)
    requires i < |v.fields| && v.fields[i].key == key
    ensures Get(v, key) == v.fields[i].val
  {
  }

  /** `obj[key] = val`: an existing property keeps its place and takes the new value;
      a new one is appended after the others. */
  function Put(fields: seq<Field>, key: string, val: JsValue): (r: seq<Field>)
    ensures DistinctKeys(fields) ==> DistinctKeys(r)
    ensures Lookup(r, key) == val
    ensures !HasKey(fields, key) ==> r == fields + [Field(key, val)]
    ensures HasKey(fields, key) ==> |r| == |fields|
    ensures HasKey(fields, key) ==> forall j :: 0 <= j < |r| ==> r[j].key == fields[j].key
    ensures HasKey(fields, key) ==> forall j :: 0 <= j < |r| && r[j].val != fields[j].val ==> fields[j].key == key
  {
    var i := FindKey(fields, key);
    var r := if i < |fields| then fields[i := Field(key, val)] else fields + [Field(key, val)];
    assert forall j :: 0 <= j < |r| ==> r[j].key == if j < |fields| then fields[j].key else key;
    FindKeyUnique(r, key, i);
    r
  }

  /** `obj[key] = val` leaves every other property as it was. */
  lemma PutLookupOther(fields: seq<Field>, key: string, val: JsValue, k: string)
    requires k != key
    ensures Lookup(Put(fields, key, val), k) == Lookup(fields, k)
  {
    var i := FindKey(fields, key);
    var r := Put(fields, key, val);
    assert forall j :: 0 <= j < |r| ==> r[j].key == if j < |fields| then fields[j].key else key;
    var f := FindKey(fields, k);
    FindKeyUnique(r, k, if f < |fields| then f else |r|);
  }

  /** The contract of `FindKey` determines its result. */
  lemma FindKeyUnique(fields: seq<Field>, key: string, i: nat)
    requires i <= |fields|
    requires i < |fields| ==> fields[i].key == key
    requires forall j :: 0 <= j < i ==> fields[j].key != key
    requires i == |fields| ==> !HasKey(fields, key)
    ensures FindKey(fields, key) == i
  {
  }

  /** `obj[k] = v` for each update in order. */
  function PutAll(fields: seq<Field>, updates: seq<Field>): (r: seq<Field>)
    ensures |fields| <= |r| <= |fields| + |updates|
    ensures forall j :: 0 <= j < |fields| ==> r[j].key == fields[j].key
    ensures forall k :: HasKey(fields, k) ==> HasKey(r, k)
    decreases |updates|
  {
    if |updates| == 0 then fields
    else PutAll(Put(fields, updates[0].key, updates[0].val), updates[1..])
  }

  /** Assignments never create a second property with the same key. */
  lemma {:induction false} PutAllDistinct(fields: seq<Field>, updates: seq<Field>)
    requires DistinctKeys(fields)
    ensures DistinctKeys(PutAll(fields, updates))
    decreases |updates|
  {
    if |updates| > 0 {
      PutAllDistinct(Put(fields, updates[0].key, updates[0].val), updates[1..]);
    }
  }

  /** After the updates, exactly the old keys and the updated keys are present. */
  lemma {:induction false} PutAllKeys(fields: seq<Field>, updates: seq<Field>, k: string)
    ensures HasKey(PutAll(fields, updates), k) <==> HasKey(fields, k) || HasKey(updates, k)
    decreases |updates|
  {
    if |updates| > 0 {
      var u := updates[0];
      PutAllKeys(Put(fields, u.key, u.val), updates[1..], k);
      PutHasKey(fields, u.key, u.val, k);
      HasKeyCons(updates, k);
    }
  }

  lemma PutHasKey(fields: seq<Field>, key: string, val: JsValue, k: string)
    ensures HasKey(Put(fields, key, val), k) <==> HasKey(fields, k) || key == k
  {
    var next := Put(fields, key, val);
    var i := FindKey(fields, key);
    assert |next| == if i < |fields| then |fields| else |fields| + 1;
    assert forall j :: 0 <= j < |next| ==> next[j].key == if j < |fields| then fields[j].key else key;
    if key == k {
      assert next[if i < |fields| then i else |fields|].key == k;
    }
    if HasKey(fields, k) {
      var j :| 0 <= j < |fields| && fields[j].key == k;
      assert next[j].key == k;
    }
  }

  lemma HasKeyCons(fields: seq<Field>, k: string)
    requires |fields| > 0
    ensures HasKey(fields, k) <==> fields[0].key == k || HasKey(fields[1..], k)
  {
    if HasKey(fields, k) && fields[0].key != k {
      var j :| 0 <= j < |fields| && fields[j].key == k;
      assert fields[1..][j - 1].key == k;
    }
    if HasKey(fields[1..], k) {
      var j :| 0 <= j < |fields[1..]| && fields[1..][j].key == k;
      assert fields[j + 1].key == k;
    }
  }

  /** The value stored under a key is the one its last update wrote. */
  lemma {:induction false} PutAllLaterWins(fields: seq<Field>, updates: seq<Field>, i: nat)
    requires i < |updates|
    requires forall j :: i < j < |updates| ==> updates[j].key != updates[i].key
    ensures Lookup(PutAll(fields, updates), updates[i].key) == updates[i].val
    decreases |updates|
  {
    var u := updates[0];
    var next := Put(fields, u.key, u.val);
    if i > 0 {
      PutAllLaterWins(next, updates[1..], i - 1);
    } else {
      PutAllUntouched(next, updates[1..], u.key);
    }
  }

  /** A key no update names keeps its value. */
  lemma {:induction false} PutAllUntouched(fields: seq<Field>, updates: seq<Field>, k: string)
    requires forall j :: 0 <= j < |updates| ==> updates[j].key != k
    ensures Lookup(PutAll(fields, updates), k) == Lookup(fields, k)
    decreases |updates|
  {
    if |updates| > 0 {
      PutLookupOther(fields, updates[0].key, updates[0].val, k);
      PutAllUntouched(Put(fields, updates[0].key, updates[0].val), updates[1..], k);
    }
  }

  /** No update names a key the object already has. */
  predicate Fresh(fields: seq<Field>, updates: seq<Field>) {
    forall j :: 0 <= j < |updates| ==> !HasKey(fields, updates[j].key)
  }

  /** Updates with fresh, distinct keys are appended in order. */
  lemma {:induction false} PutAllFresh(fields: seq<Field>, updates: seq<Field>)
    requires DistinctKeys(updates)
    requires Fresh(fields, updates)
    ensures PutAll(fields, updates) == fields + updates
    decreases |updates|
  {
    if |updates| > 0 {
      var u, rest := updates[0], updates[1..];
      calc {
        PutAll(fields, updates);
        PutAll(Put(fields, u.key, u.val), rest);
        { FreshStep(fields, updates); }
        PutAll(fields + [u], rest);
        { FreshStep(fields, updates); PutAllFresh(fields + [u], rest); }
        fields + [u] + rest;
        { assert updates == [u] + rest; }
        fields + updates;
      }
    }
  }

  /** One step of `PutAllFresh`: the first update is appended and the rest stay fresh. */
  lemma FreshStep(fields: seq<Field>, updates: seq<Field>)
    requires |updates| > 0
    requires DistinctKeys(updates)
    requires Fresh(fields, updates)
    ensures Put(fields, updates[0].key, updates[0].val) == fields + [updates[0]]
    ensures DistinctKeys(updates[1..])
    ensures Fresh(fields + [updates[0]], updates[1..])
  {
    var rest := updates[1..];
    forall j | 0 <= j < |rest| ensures !HasKey(fields + [updates[0]], rest[j].key) {
      assert rest[j] == updates[j + 1];
      HasKeyAppend(fields, updates[0], rest[j].key);
    }
  }

  lemma HasKeyAppend(fields: seq<Field>, f: Field, k: string)
    ensures HasKey(fields + [f], k) <==> HasKey(fields, k) || f.key == k
  {
    var r := fields + [f];
    if HasKey(r, k) && f.key != k {
      var j :| 0 <= j < |r| && r[j].key == k;
      assert fields[j].key == k;
    }
    if HasKey(fields, k) {
      var j :| 0 <= j < |fields| && fields[j].key == k;
      assert r[j].key == k;
    }
    if f.key == k {
      assert r[|fields|].key == k;
    }
  }

  /** Every character is a decimal digit. */
  predicate IsDigits(s: string) {
    forall i :: 0 <= i < |s| ==> '0' <= s[i] <= '9'
  }

  /** The number a string of decimal digits denotes, read left to right. */
  function DecValue(s: string): nat
    requires IsDigits(s)
  {
    if |s| == 0 then 0
    else 10 * DecValue(s[..|s| - 1]) + ((s[|s| - 1] as int) - ('0' as int))
  }

  /** Decimal digits of a natural number, as `String(n)` prints it: no leading
      zero, and reading the digits back gives `n`. */
  function NatToString(n: nat): (s: string)
    ensures |s| >= 1
    ensures IsDigits(s)
    ensures DecValue(s) == n
    ensures s[0] == '0' ==> s == "0"
    decreases n
  {
    var d := [(('0' as int) + n % 10) as char];
    if n < 10 then d
    else
      var h := NatToString(n / 10);
      assert (h + d)[..|h + d| - 1] == h;
      h + d
  }

  /** Distinct numbers print differently. */
  lemma NatToStringInjective(a: nat, b: nat)
    requires NatToString(a) == NatToString(b)
    ensures a == b
  {
    assert DecValue(NatToString(a)) == DecValue(NatToString(b));
  }

  /** `String(n)` for an integer: a minus sign exactly for negative numbers,
      then the decimal digits of its magnitude. */
  function IntToString(n: int): (s: string)
    ensures |s| >= 1
    ensures s[0] == '-' <==> n < 0
    ensures forall i :: 0 < i < |s| ==> '0' <= s[i] <= '9'
    ensures n >= 0 ==> IsDigits(s) && DecValue(s) == n
    ensures n < 0 ==> |s| >= 2 && IsDigits(s[1..]) && DecValue(s[1..]) == -n
    ensures s[0] == '0' ==> s == "0"
    ensures n < 0 ==> s[1] != '0'
  {
    if n < 0 then
      var m := NatToString(-n);
      assert ("-" + m)[1..] == m;
      "-" + m
    else NatToString(n)
  }

  /** Distinct integers print differently. */
  lemma IntToStringInjective(a: int, b: int)
    requires IntToString(a) == IntToString(b)
    ensures a == b
  {
    var s := IntToString(a);
    if a < 0 {
      assert DecValue(s[1..]) == -a == -b;
    } else {
      assert DecValue(s) == a == b;
    }
  }

  /** A string of digits with no leading zero (except "0" itself). */
  predicate IsCanonicalDigits(s: string) {
    |s| >= 1 && IsDigits(s) && (s[0] == '0' ==> s == "0")
  }

  /** A canonical digit string with a nonzero first digit denotes a positive number. */
  lemma {:induction false} LeadingDigitPositive(s: string)
    requires |s| >= 1 && IsDigits(s) && s[0] != '0'
    ensures DecValue(s) > 0
    decreases |s|
  {
    if |s| > 1 {
      var h := s[..|s| - 1];
      assert h[0] == s[0];
      LeadingDigitPositive(h);
    }
  }

  /** The decimal digits of a number are unique: a canonical digit string that
      reads as `n` is `NatToString(n)`. */
  lemma {:induction false} CanonicalDigitsUnique(s: string, n: nat)
    requires IsCanonicalDigits(s) && DecValue(s) == n
    ensures s == NatToString(n)
    decreases |s|
  {
    var last := (s[|s| - 1] as int) - ('0' as int);
    if |s| == 1 {
      assert DecValue(s[..0]) == 0;
      assert n == last;
    } else {
      var h := s[..|s| - 1];
      assert h[0] == s[0] && s[0] != '0';
      LeadingDigitPositive(h);
      assert n == 10 * DecValue(h) + last && 0 <= last < 10;
      assert n / 10 == DecValue(h) && n % 10 == last;
      CanonicalDigitsUnique(h, n / 10);
      assert s == h + [s[|s| - 1]];
    }
  }

  /** `IntToString` is the only canonical rendering of an integer: an optional
      minus sign, then digits without a leading zero, reading back as `n`. */
  lemma IntToStringUnique(n: int, s: string)
    requires n >= 0 ==> IsCanonicalDigits(s) && DecValue(s) == n
    requires n < 0 ==> |s| >= 2 && s[0] == '-' && IsCanonicalDigits(s[1..]) && s[1] != '0' && DecValue(s[1..]) == -n
    ensures IntToString(n) == s
  {
    if n >= 0 {
      CanonicalDigitsUnique(s, n);
    } else {
      CanonicalDigitsUnique(s[1..], -n);
      assert s == "-" + s[1..];
    }
  }

  /** A numeric state name and its decimal string name the same property. */
  lemma NumKeyIsDecimalString(n: nat, s: string)
    requires IsCanonicalDigits(s) && DecValue(s) == n
    ensures KeyString(Num(n)) == KeyString(Str(s))
  {
    IntToStringUnique(n, s);
  }

  /** `parts.join(",")`. */
  function Join(parts: seq<string>): string {
    if |parts| == 0 then ""
    else if |parts| == 1 then parts[0]
    else parts[0] + "," + Join(parts[1..])
  }

  /** The property key a value becomes when used as `obj[v]` (`String(v)`):
      arrays join their elements with commas, `null`/`undefined` elements
      becoming empty; a plain object becomes "[object Object]". This is the key
      whenever the conversion does not throw; `KeyThrows` says when it does. */
  function KeyString(v: JsValue): (k: string)
    ensures v.Str? ==> k == v.s
    ensures v.Obj? ==> k == "[object Object]"
    ensures v.Num? ==> |k| >= 1 && (k[0] == '-' <==> v.n < 0) && forall i :: 0 < i < |k| ==> '0' <= k[i] <= '9'
    ensures v.Num? && v.n >= 0 ==> IsDigits(k) && DecValue(k) == v.n
    ensures v.Num? && v.n < 0 ==> |k| >= 2 && IsDigits(k[1..]) && DecValue(k[1..]) == -v.n
    ensures v.Num? ==> (k[0] == '0' ==> k == "0") && (v.n < 0 ==> k[1] != '0')
    ensures v == Absent ==> k == "undefined"
    ensures v == Null ==> k == "null"
    ensures v.Bool? ==> k == if v.b then "true" else "false"
    ensures v == Arr([]) ==> k == ""
    decreases v, 0
  {
    match v
    case Absent => "undefined"
    case Null => "null"
    case Bool(b) => if b then "true" else "false"
    case Num(n) => IntToString(n)
    case Str(s) => s
    case Obj(_) => "[object Object]"
    case Arr(items) => ArrayKey(items)
  }

  /** The key of one array element inside `join`: empty for `null` and `undefined`. */
  function ElementKey(x: JsValue): string
    decreases x, 1
  {
    if IsNullish(x) then "" else KeyString(x)
  }

  /** `String(items)`, element by element. */
  function ArrayKey(items: seq<JsValue>): (k: string)
    ensures |items| == 0 ==> k == ""
    decreases items
  {
    if |items| == 0 then ""
    else ElementKey(items[0]) + (if |items| == 1 then "" else "," + ArrayKey(items[1..]))
  }

  /** `String(v)` throws a TypeError: an object whose own `toString` property
      shadows the inherited one (a parsed value is never callable, so the
      conversion falls back to `valueOf`, which returns the object itself), or an
      array one of whose elements, at any depth, is such an object. */
  predicate KeyThrows(v: JsValue): (b: bool)
    ensures v.Obj? ==> (b <==> HasKey(v.fields, "toString"))
    ensures v.Arr? ==> (b <==> exists i :: 0 <= i < |v.items| && KeyThrows(v.items[i]))
    ensures !v.Obj? && !v.Arr? ==> !b
    decreases v, 0
  {
    match v
    case Obj(fields) => HasKey(fields, "toString")
    case Arr(items) => ElementsThrow(items)
    case _ => false
  }

  /** `join` converts every element, so one throwing element makes it throw. */
  predicate ElementsThrow(items: seq<JsValue>): (b: bool)
    ensures b <==> exists i :: 0 <= i < |items| && KeyThrows(items[i])
    decreases items
  {
    if |items| == 0 then false
    else KeyThrows(items[0]) || ElementsThrow(items[1..])
  }

  /** An array's key is the comma join of its elements' keys. */
  lemma {:induction false} ArrayKeyIsJoin(items: seq<JsValue>, keys: seq<string>)
    requires |keys| == |items|
    requires forall i :: 0 <= i < |items| ==> keys[i] == ElementKey(items[i])
    ensures KeyString(Arr(items)) == Join(keys)
  {
    if |items| > 1 {
      ArrayKeyIsJoin(items[1..], keys[1..]);
    }
  }

  /** An array's key is its first element's key (empty for `null` and
      `undefined`), then, if more elements follow, a comma and the key of the rest. */
  lemma KeyStringCons(x: JsValue, rest: seq<JsValue>)
    ensures KeyString(Arr([x] + rest)) ==
      (if IsNullish(x) then "" else KeyString(x)) + (if |rest| == 0 then "" else "," + KeyString(Arr(rest)))
  {
    var items := [x] + rest;
    assert items[0] == x && items[1..] == rest;
    assert KeyString(Arr(items)) == ArrayKey(items);
    assert |rest| > 0 ==> KeyString(Arr(rest)) == ArrayKey(rest);
  }

  /** `String(["a", null, -3])` is "a,,-3". */
  lemma KeyStringMixedArray()
    ensures KeyString(Arr([Str("a"), Null, Num(-3)])) == "a,,-3"
  {
    var items := [Str("a"), Null, Num(-3)];
    assert IntToString(-3) == "-3";
    assert ArrayKey(items[2..]) == "-3";
    assert ArrayKey(items[1..]) == ",-3";
  }

  /** A one-element array becomes the key of its element, so `["CA"]` and
      `"CA"` name the same state. */
  lemma KeyStringSingleton(x: JsValue)
    requires !IsNullish(x)
    ensures KeyString(Arr([x])) == KeyString(x)
  {
    assert ArrayKey([x]) == ElementKey(x);
  }

  /** `Object.entries(v)`: own enumerable properties in order. Arrays and strings
      enumerate their indices; numbers and booleans have none; `null` and
      `undefined` throw. */
  function ObjectEntries(v: JsValue): (es: seq<Field>)
    requires !IsNullish(v)
    ensures v.Obj? ==> es == v.fields
    ensures v.Arr? ==> |es| == |v.items| && forall i :: 0 <= i < |es| ==> es[i] == Field(NatToString(i), v.items[i])
    ensures v.Str? ==> |es| == |v.s| && forall i :: 0 <= i < |es| ==> es[i] == Field(NatToString(i), Str([v.s[i]]))
    ensures !v.Obj? && !v.Arr? && !v.Str? ==> es == []
  {
    match v
    case Obj(fields) => fields
    case Arr(items) => IndexEntries(items)
    case Str(s) => IndexEntries(Chars(s))
    case _ => []
  }

  /** A string's characters, each as a one-character string. */
  function Chars(s: string): (cs: seq<JsValue>)
    ensures |cs| == |s|
    ensures forall i :: 0 <= i < |s| ==> cs[i] == Str([s[i]])
  {
    seq(|s|, i requires 0 <= i < |s| => Str([s[i]]))
  }

  /** Entries keyed by index: "0", "1", ... */
  function IndexEntries(items: seq<JsValue>): (es: seq<Field>)
    ensures |es| == |items|
    ensures forall i :: 0 <= i < |es| ==> es[i] == Field(NatToString(i), items[i])
  {
    seq(|items|, i requires 0 <= i < |items| => Field(NatToString(i), items[i]))
  }
}

=== FILE: legal_map.dfy ===
/**
 The choropleth map: each state's fill colour from its resolved status, and
 the two legend labels read from the dataset's categories.
 */
module LegalMap {
  import opened JsValues
  import opened TimelineTypes

  const IllegalColor: string := "#DC2626"
  const LegalColor: string := "#16A34A"

  /** `colorScale`: only statuses 0 and 1 have a colour of their own. */
  const ColorScale: map<int, string> := map[0 := IllegalColor, 1 := LegalColor]

  /** `colorScale[status] || colorScale[0]`: a missing (or empty) entry falls
      back to the status-0 colour. */
  function StatusColor(status: int): (c: string)
    ensures c == LegalColor <==> status == 1
    ensures c == IllegalColor <==> status != 1
  {
    if status in ColorScale && ColorScale[status] != "" then ColorScale[status] else ColorScale[0]
  }

  /** The fill of the shape whose FIPS code is `fips`: the legal colour exactly
      when the last change in the qualifying prefix of its list set status 1. */
  function GeographyFill(fips: string, year: int, ds: LegalDataset): (c: string)
    ensures c == IllegalColor || c == LegalColor
    ensures c == LegalColor <==>
      fips in ds.states &&
      var changes := ds.states[fips];
      var k := QualifyingPrefix(changes, year);
      k > 0 && changes[k - 1].status == 1
  {
    StatusColor(GetStatusForYear(fips, year, ds))
  }

  /** A state with no entry is drawn in the status-0 colour in every year, and so
      is every state before its first change. */
  lemma NoDataIsIllegalColor(fips: string, year: int, ds: LegalDataset)
    requires fips !in ds.states || |ds.states[fips]| == 0 || year < ds.states[fips][0].year
    ensures GeographyFill(fips, year, ds) == IllegalColor
  {
  }

  /** On a sorted list the colour sticks after the last change. */
  lemma FillSticksAfterLastChange(fips: string, year: int, ds: LegalDataset)
    requires fips in ds.states && |ds.states[fips]| > 0
    requires Sorted(ds.states[fips])
    requires year >= ds.states[fips][|ds.states[fips]| - 1].year
    ensures GeographyFill(fips, year, ds) == StatusColor(ds.states[fips][|ds.states[fips]| - 1].status)
  {
    StatusSticksAfterLastChange(ds, fips, year);
  }

  // ---------------------------------------------------------------------------
  // Legend
  // ---------------------------------------------------------------------------

  /** The legend shows labels for statuses 0 and 1 only. */
  type LegendStatus = k: int | k == 0 || k == 1

  function DefaultLabel(k: LegendStatus): string {
    if k == 0 then "Illegal/No Data" else "Legal"
  }

  /** `Object.keys(categories).find(key => categories[key] === k)`, as a position
      in `Object.entries(categories)`; `|entries|` when nothing matches. */
  function FirstWithValue(entries: seq<Field>, k: int): (i: nat)
    ensures i <= |entries|
    ensures i < |entries| ==> entries[i].val == Num(k)
    ensures forall j :: 0 <= j < i ==> entries[j].val != Num(k)
  {
    if |entries| == 0 then 0
    else if entries[0].val == Num(k) then 0
    else 1 + FirstWithValue(entries[1..], k)
  }

  /** `categories && find(...) || default`: the first category key whose value is
      `k`, unless the categories are falsy, nothing matches, or the matching key
      is the empty string. */
  function LegendLabel(categories: JsValue, k: LegendStatus): (text: string)
    ensures !Truthy(categories) ==> text == DefaultLabel(k)
    ensures Truthy(categories) ==>
      var es := ObjectEntries(categories);
      (forall i :: 0 <= i < |es| ==> es[i].val != Num(k)) ==> text == DefaultLabel(k)
    ensures Truthy(categories) ==>
      var es := ObjectEntries(categories);
      forall i ::
        (0 <= i < |es| && es[i].val == Num(k) && es[i].key != "" &&
         (forall j :: 0 <= j < i ==> es[j].val != Num(k)))
        ==> text == es[i].key
    ensures Truthy(categories) ==>
      var es := ObjectEntries(categories);
      var i := FirstWithValue(es, k);
      i < |es| && es[i].key == "" ==> text == DefaultLabel(k)
    ensures text == DefaultLabel(k) ||
      (Truthy(categories) &&
       var es := ObjectEntries(categories);
       exists i :: 0 <= i < |es| && es[i].key == text && es[i].val == Num(k))
  {
    if !Truthy(categories) then DefaultLabel(k)
    else
      var es := ObjectEntries(categories);
      var i := FirstWithValue(es, k);
      if i < |es| && es[i].key != "" then es[i].key else DefaultLabel(k)
  }

  /** A legacy file without categories gets the default ones, whose legend reads
      "Illegal" for status 0 and "Medical" for status 1. */
  lemma DefaultCategoriesLegend()
    ensures LegendLabel(Obj([Field("Illegal", Num(0)), Field("Medical", Num(1)), Field("Legal", Num(2))]), 0) == "Illegal"
    ensures LegendLabel(Obj([Field("Illegal", Num(0)), Field("Medical", Num(1)), Field("Legal", Num(2))]), 1) == "Medical"
  {
  }

  /** Empty categories leave both default labels. */
  lemma EmptyCategoriesLegend(k: LegendStatus)
    ensures LegendLabel(Obj([]), k) == DefaultLabel(k)
  {
  }
}

=== FILE: store.dfy ===
/**
 The dataset loader of the application store: conversion of the legacy
 `{title?, factor?, categories?, data: [{state, events}]}` shape into the
 canonical `{factor, categories, states}` shape, the structural validation
 that follows it, and the validate-then-commit step of `loadDatasetFile`.

 Reading the file and `JSON.parse` happen before this model starts: the
 input is the already parsed JavaScript value.
 */
module Store {
  import opened Wrappers
  import opened JsValues
  import opened TimelineTypes

  /** What `convertDatasetFormat` and `loadDatasetFile` throw. `TypeError` is the
      runtime's own error for reading a property of `null`/`undefined`, calling
      `.map` on something that is not an array, or iterating a non-iterable. */
  datatype LoadError =
    | InvalidFormat
    | MissingFactorOrStates
    | InvalidEvents(state: string)
    | InvalidEvent(state: string)
    | TypeError

  /** The error message the upload form shows. */
  function Message(e: LoadError): (m: string)
    ensures e.InvalidFormat? || e.MissingFactorOrStates? ==> "Invalid dataset format - " <= m
    ensures e.InvalidEvents? ==> m == "Invalid events data for state: " + e.state
    ensures e.InvalidEvent? ==> m == "Invalid event data for state: " + e.state
  {
    match e
    case InvalidFormat => "Invalid dataset format - missing both data and states"
    case MissingFactorOrStates => "Invalid dataset format - missing factor or states"
    case InvalidEvents(s) => "Invalid events data for state: " + s
    case InvalidEvent(s) => "Invalid event data for state: " + s
    case TypeError => "TypeError"
  }

  const DefaultFactor: string := "Legal Status"

  const DefaultCategories: JsValue :=
    Obj([Field("Illegal", Num(0)), Field("Medical", Num(1)), Field("Legal", Num(2))])

  /** The year the store is reset to after a successful load. */
  const ResetYear: int := 2020

  // ---------------------------------------------------------------------------
  // convertDatasetFormat
  // ---------------------------------------------------------------------------

  /** Legacy status coding: strings are coded, anything else passes through. */
  function CodeStatus(v: JsValue): (r: JsValue)
    ensures v.Str? ==> r.Num? && 0 <= r.n <= 2
    ensures v.Str? ==> (r == Num(2) <==> v.s == "legal")
    ensures v.Str? ==> (r == Num(1) <==> v.s == "medical")
    ensures !v.Str? ==> r == v
  {
    if v.Str? then
      if v.s == "legal" then Num(2) else if v.s == "medical" then Num(1) else Num(0)
    else v
  }

  /** The object literal built for one legacy event. `sources` is spread in only
      when it is truthy. */
  function ConvertedEvent(e: JsValue): (r: JsValue)
    requires !IsNullish(e)
    ensures r.Obj? && DistinctKeys(r.fields)
    ensures Get(r, "year") == Get(e, "year")
    ensures Get(r, "status") == CodeStatus(Get(e, "status"))
    ensures Get(r, "sources") == if Truthy(Get(e, "sources")) then Get(e, "sources") else Absent
  {
    var sources := Get(e, "sources");
    var fs := [Field("year", Get(e, "year")), Field("status", CodeStatus(Get(e, "status")))]
      + if Truthy(sources) then [Field("sources", sources)] else [];
    assert fs[0].key == "year" && fs[1].key == "status";
    assert Truthy(sources) ==> fs[2].key == "sources";
    assert !Truthy(sources) ==> !HasKey(fs, "sources");
    Obj(fs)
  }

  /** `events.map(...)`: reading `event.year` of a `null` element throws. */
  function ConvertEvents(events: seq<JsValue>): (r: Result<seq<JsValue>, LoadError>)
    ensures r.Success? <==> forall i :: 0 <= i < |events| ==> !IsNullish(events[i])
    ensures r.Failure? ==> r.error == TypeError
    ensures r.Success? ==> |r.value| == |events|
    ensures r.Success? ==> forall i :: 0 <= i < |events| ==> r.value[i] == ConvertedEvent(events[i])
  {
    if |events| == 0 then Success([])
    else if IsNullish(events[0]) then Failure(TypeError)
    else
      var rest :- ConvertEvents(events[1..]);
      Success([ConvertedEvent(events[0])] + rest)
  }

  /** One element of the legacy `data` array, converted to a property of `states`:
      its key is `String(stateData.state)`, and the assignment throws when that
      conversion does. */
  function ConvertState(sd: JsValue): (r: Result<Field, LoadError>)
    ensures r.Success? <==>
      && !IsNullish(sd) && Get(sd, "events").Arr? && ConvertEvents(Get(sd, "events").items).Success?
      && !KeyThrows(Get(sd, "state"))
    ensures !IsNullish(sd) && KeyThrows(Get(sd, "state")) ==> r == Failure(TypeError)
    ensures r.Failure? ==> r.error == TypeError
    ensures r.Success? ==> r.value.key == KeyString(Get(sd, "state"))
    ensures r.Success? ==> r.value.val == Arr(ConvertEvents(Get(sd, "events").items).value)
  {
    if IsNullish(sd) then Failure(TypeError)
    else
      var events := Get(sd, "events");
      if !events.Arr? then Failure(TypeError)
      else
        var converted :- ConvertEvents(events.items);
        var name := Get(sd, "state");
        if KeyThrows(name) then Failure(TypeError)
        else Success(Field(KeyString(name), Arr(converted)))
  }

  /** The elements of the legacy `data` array, each converted to the property it
      becomes; the first element that cannot be converted throws. */
  function ConvertStateList(data: seq<JsValue>): (r: Result<seq<Field>, LoadError>)
    ensures r.Success? <==> forall i :: 0 <= i < |data| ==> ConvertState(data[i]).Success?
    ensures r.Failure? ==> r.error == TypeError
    ensures r.Success? ==> |r.value| == |data|
    ensures r.Success? ==> forall i :: 0 <= i < |data| ==> r.value[i] == ConvertState(data[i]).value
  {
    if |data| == 0 then Success([])
    else
      var f :- ConvertState(data[0]);
      var rest :- ConvertStateList(data[1..]);
      assert forall i :: 1 <= i < |data| ==> data[i] == data[1..][i - 1];
      Success([f] + rest)
  }

  /** The `for (const stateData of dataArray)` loop: `states[stateName] = events`
      for each element in order, starting from an empty object. */
  function ConvertStates(data: seq<JsValue>): (r: Result<seq<Field>, LoadError>)
    ensures r.Success? <==> forall i :: 0 <= i < |data| ==> ConvertState(data[i]).Success?
    ensures r.Failure? ==> r.error == TypeError
    ensures r.Success? ==> DistinctKeys(r.value)
  {
    var updates :- ConvertStateList(data);
    PutAllDistinct([], updates);
    Success(PutAll([], updates))
  }

  /** Every legacy state name becomes a key of `states`, and no other key does. */
  lemma ConvertStatesKeys(data: seq<JsValue>, k: string)
    requires ConvertStates(data).Success?
    ensures HasKey(ConvertStates(data).value, k) <==>
      exists i :: 0 <= i < |data| && ConvertState(data[i]).value.key == k
  {
    var updates := ConvertStateList(data).value;
    PutAllKeys([], updates, k);
    if HasKey(updates, k) {
      var j :| 0 <= j < |updates| && updates[j].key == k;
      assert ConvertState(data[j]).value.key == k;
    }
  }

  /** A repeated state name is overwritten: the value stored under a key is the
      conversion of the last element with that name. */
  lemma ConvertStatesLaterWins(data: seq<JsValue>, i: nat)
    requires ConvertStates(data).Success?
    requires i < |data|
    requires forall j :: i < j < |data| ==> ConvertState(data[j]).value.key != ConvertState(data[i]).value.key
    ensures Lookup(ConvertStates(data).value, ConvertState(data[i]).value.key) == ConvertState(data[i]).value.val
  {
    PutAllLaterWins([], ConvertStateList(data).value, i);
  }

  /** `factor || title || 'Legal Status'`: the first truthy operand, else the default. */
  function LegacyFactor(v: JsValue): (r: JsValue)
    ensures Truthy(r)
    ensures Truthy(Get(v, "factor")) ==> r == Get(v, "factor")
    ensures !Truthy(Get(v, "factor")) && Truthy(Get(v, "title")) ==> r == Get(v, "title")
    ensures !Truthy(Get(v, "factor")) && !Truthy(Get(v, "title")) ==> r == Str(DefaultFactor)
  {
    if Truthy(Get(v, "factor")) then Get(v, "factor")
    else if Truthy(Get(v, "title")) then Get(v, "title")
    else Str(DefaultFactor)
  }

  /** `convertDatasetFormat`: canonical input passes through unchanged; legacy input
      is converted; input with both `data` and `states`, or neither, is rejected. */
  function ConvertDatasetFormat(v: JsValue): (r: Result<JsValue, LoadError>)
    ensures IsNullish(v) ==> r == Failure(TypeError)
    ensures !IsNullish(v) && Truthy(Get(v, "states")) && !Truthy(Get(v, "data")) ==> r == Success(v)
    ensures !IsNullish(v) && Truthy(Get(v, "states")) == Truthy(Get(v, "data")) ==> r == Failure(InvalidFormat)
    // legacy input converts exactly when `data` is an array whose records all
    // convert; otherwise iterating or mapping throws
    ensures !IsNullish(v) && Truthy(Get(v, "data")) && !Truthy(Get(v, "states")) ==>
      (r.Success? <==> Get(v, "data").Arr? && ConvertStates(Get(v, "data").items).Success?)
    ensures !IsNullish(v) && Truthy(Get(v, "data")) && !Truthy(Get(v, "states")) && r.Failure? ==>
      r.error == TypeError
    ensures r.Success? ==> r.value.Obj? && Truthy(Get(r.value, "states"))
    ensures r.Success? && Truthy(Get(v, "data")) ==>
      && Get(v, "data").Arr?
      && ConvertStates(Get(v, "data").items).Success?
      && Get(r.value, "states") == Obj(ConvertStates(Get(v, "data").items).value)
      && Get(r.value, "factor") == LegacyFactor(v)
      && Get(r.value, "categories") == (if Truthy(Get(v, "categories")) then Get(v, "categories") else DefaultCategories)
  {
    if IsNullish(v) then Failure(TypeError)
    else
      var states := Get(v, "states");
      var data := Get(v, "data");
      if Truthy(states) && !Truthy(data) then
        assert v.Obj?;
        Success(v)
      else if Truthy(data) && !Truthy(states) then
        // A non-empty string iterates, but its first character has no `events`
        // to map over; every other non-array throws on iteration.
        if !data.Arr? then Failure(TypeError)
        else
          var fields :- ConvertStates(data.items);
          var categories := Get(v, "categories");
          var out := [
            Field("factor", LegacyFactor(v)),
            Field("categories", if Truthy(categories) then categories else DefaultCategories),
            Field("states", Obj(fields))];
          assert out[0].key == "factor" && out[1].key == "categories" && out[2].key == "states";
          assert DistinctKeys(out);
          assert Lookup(out, "states") == Obj(fields);
          assert Lookup(out, "categories") == out[1].val;
          Success(Obj(out))
      else Failure(InvalidFormat)
  }

  // ---------------------------------------------------------------------------
  // Validation inside loadDatasetFile
  // ---------------------------------------------------------------------------

  /** `typeof event.year === 'number' && typeof event.status === 'number'`. */
  predicate WellTypedEvent(e: JsValue): (b: bool)
    ensures b ==> e.Obj? && HasKey(e.fields, "year") && HasKey(e.fields, "status")
  {
    !IsNullish(e) && Get(e, "year").Num? && Get(e, "status").Num?
  }

  /** The typed change an event that passed validation stands for. */
  function ChangeOf(e: JsValue): StatusChange
    requires WellTypedEvent(e)
  {
    StatusChange(Get(e, "year").n, Get(e, "status").n)
  }

  /** The inner loop over one state's events, in order. */
  function ValidateEvents(state: string, events: seq<JsValue>): (r: Result<seq<StatusChange>, LoadError>)
    ensures r.Success? <==> forall i :: 0 <= i < |events| ==> WellTypedEvent(events[i])
    ensures r.Success? ==> |r.value| == |events|
    ensures r.Success? ==> forall i :: 0 <= i < |events| ==> r.value[i] == ChangeOf(events[i])
    ensures r.Failure? ==> r.error == TypeError || r.error == InvalidEvent(state)
  {
    if |events| == 0 then Success([])
    else if IsNullish(events[0]) then Failure(TypeError)
    else if !WellTypedEvent(events[0]) then Failure(InvalidEvent(state))
    else
      var rest :- ValidateEvents(state, events[1..]);
      Success([ChangeOf(events[0])] + rest)
  }

  /** The error the first event that fails validation raises: reading a field
      of `null`/`undefined` throws before the type test can. */
  function EventError(state: string, e: JsValue): LoadError {
    if IsNullish(e) then TypeError else InvalidEvent(state)
  }

  /** The events are checked in order: the first one that fails decides the error. */
  lemma {:induction false} ValidateEventsFirstFailure(state: string, events: seq<JsValue>, i: nat)
    requires i < |events|
    requires forall j :: 0 <= j < i ==> WellTypedEvent(events[j])
    requires !WellTypedEvent(events[i])
    ensures ValidateEvents(state, events) == Failure(EventError(state, events[i]))
  {
    if i > 0 {
      ValidateEventsFirstFailure(state, events[1..], i - 1);
    }
  }

  /** Entry `e` of `Object.entries(dataset.states)` passes the checks. */
  predicate ValidEntry(e: Field) {
    e.val.Arr? && ValidateEvents(e.key, e.val.items).Success?
  }

  /** The outer loop over `Object.entries(dataset.states)`; it also collects the
      typed view of the states it has checked. The first entry that fails
      decides the error. */
  function ValidateEntries(entries: seq<Field>): (r: Result<StateTimeline, LoadError>)
    ensures r.Success? <==> forall i :: 0 <= i < |entries| ==> ValidEntry(entries[i])
    ensures r.Failure? && !r.error.TypeError? ==>
      (r.error.InvalidEvents? || r.error.InvalidEvent?) && HasKey(entries, r.error.state)
  {
    if |entries| == 0 then Success(map[])
    else
      var init := entries[..|entries| - 1];
      var last := entries[|entries| - 1];
      assert forall i :: 0 <= i < |init| ==> init[i] == entries[i];
      var m :- ValidateEntries(init);
      if !last.val.Arr? then Failure(InvalidEvents(last.key))
      else
        var changes :- ValidateEvents(last.key, last.val.items);
        Success(m[last.key := changes])
  }

  /** The error an entry that fails validation raises. */
  function EntryError(e: Field): LoadError
    requires !ValidEntry(e)
  {
    if !e.val.Arr? then InvalidEvents(e.key) else ValidateEvents(e.key, e.val.items).error
  }

  /** The entries are checked in order: the first one that fails decides the error. */
  lemma {:induction false} ValidateEntriesFirstFailure(entries: seq<Field>, i: nat)
    requires i < |entries|
    requires forall j :: 0 <= j < i ==> ValidEntry(entries[j])
    requires !ValidEntry(entries[i])
    ensures ValidateEntries(entries) == Failure(EntryError(entries[i]))
  {
    var n := |entries| - 1;
    var init := entries[..n];
    if i < n {
      forall j | 0 <= j < i ensures ValidEntry(init[j]) {
        assert init[j] == entries[j];
      }
      assert init[i] == entries[i];
      ValidateEntriesFirstFailure(init, i);
      ValidateEntriesInitFails(entries);
    } else {
      assert forall j :: 0 <= j < |init| ==> ValidEntry(init[j]) by {
        forall j | 0 <= j < |init| ensures ValidEntry(init[j]) {
          assert init[j] == entries[j];
        }
      }
      ValidateEntriesLastFails(entries);
    }
  }

  /** A failure among all but the last entry is the failure of the whole list. */
  lemma ValidateEntriesInitFails(entries: seq<Field>)
    requires |entries| > 0 && ValidateEntries(entries[..|entries| - 1]).Failure?
    ensures ValidateEntries(entries) == ValidateEntries(entries[..|entries| - 1])
  {
  }

  /** When all but the last entry pass, a failing last entry decides the error. */
  lemma ValidateEntriesLastFails(entries: seq<Field>)
    requires |entries| > 0 && ValidateEntries(entries[..|entries| - 1]).Success?
    requires !ValidEntry(entries[|entries| - 1])
    ensures ValidateEntries(entries) == Failure(EntryError(entries[|entries| - 1]))
  {
  }

  /** A successful check of a non-empty list is the check of all but the last
      entry, extended by the last entry's typed events. */
  lemma ValidateEntriesSnoc(entries: seq<Field>)
    requires |entries| > 0 && ValidateEntries(entries).Success?
    ensures var init, last := entries[..|entries| - 1], entries[|entries| - 1];
      && ValidateEntries(init).Success?
      && last.val.Arr? && ValidateEvents(last.key, last.val.items).Success?
      && ValidateEntries(entries).value ==
           ValidateEntries(init).value[last.key := ValidateEvents(last.key, last.val.items).value]
  {
  }

  /** The typed view has exactly the entries' keys. */
  lemma {:induction false} ValidateEntriesKeys(entries: seq<Field>, k: string)
    requires ValidateEntries(entries).Success?
    ensures k in ValidateEntries(entries).value <==> HasKey(entries, k)
  {
    if |entries| > 0 {
      var n := |entries| - 1;
      var init, last := entries[..n], entries[n];
      ValidateEntriesSnoc(entries);
      ValidateEntriesKeys(init, k);
      HasKeyAppend(init, last, k);
      assert init + [last] == entries;
    }
  }

  /** With distinct keys, each state's typed change list is its validated events. */
  lemma {:induction false} ValidateEntriesValues(entries: seq<Field>, i: nat)
    requires ValidateEntries(entries).Success?
    requires DistinctKeys(entries)
    requires i < |entries|
    ensures entries[i].key in ValidateEntries(entries).value
    ensures ValidateEntries(entries).value[entries[i].key] == ValidateEvents(entries[i].key, entries[i].val.items).value
  {
    var n := |entries| - 1;
    var init, last := entries[..n], entries[n];
    ValidateEntriesSnoc(entries);
    if i < n {
      assert init[i] == entries[i];
      assert DistinctKeys(init);
      ValidateEntriesValues(init, i);
      assert entries[i].key != last.key;
    }
  }

  /** The structural check of `loadDatasetFile`; on success, the typed dataset the
      resolver and the map read. */
  function ValidateDataset(ds: JsValue): (r: Result<LegalDataset, LoadError>)
    ensures !IsNullish(ds) && (!Truthy(Get(ds, "factor")) || !Truthy(Get(ds, "states"))) ==>
      r == Failure(MissingFactorOrStates)
    ensures r.Success? <==>
      !IsNullish(ds) && Truthy(Get(ds, "factor")) && Truthy(Get(ds, "states"))
      && forall i :: 0 <= i < |ObjectEntries(Get(ds, "states"))| ==> ValidEntry(ObjectEntries(Get(ds, "states"))[i])
    ensures r.Success? ==> r.value.factor == Get(ds, "factor") && r.value.categories == Get(ds, "categories")
    ensures r.Success? ==> forall k :: k in r.value.states <==> HasKey(ObjectEntries(Get(ds, "states")), k)
  {
    if IsNullish(ds) then Failure(TypeError)
    else if !Truthy(Get(ds, "factor")) || !Truthy(Get(ds, "states")) then Failure(MissingFactorOrStates)
    else
      var entries := ObjectEntries(Get(ds, "states"));
      var states :- ValidateEntries(entries);
      assert forall k :: k in states <==> HasKey(entries, k) by {
        forall k ensures k in states <==> HasKey(entries, k) {
          ValidateEntriesKeys(entries, k);
        }
      }
      Success(LegalDataset(Get(ds, "factor"), Get(ds, "categories"), states))
  }

  // ---------------------------------------------------------------------------
  // The store
  // ---------------------------------------------------------------------------

  /** The store fields the loader touches; the dataset index, selection and
      loading flag are outside this model. */
  datatype AppStore = AppStore(year: int, dataset: Option<JsValue>)

  const InitialStore: AppStore := AppStore(ResetYear, None)

  /** `loadDatasetFile` after parsing: convert, validate, then commit the dataset
      and reset the year, or leave the store untouched and rethrow. */
  function LoadDatasetFile(st: AppStore, parsed: JsValue): (r: (AppStore, Outcome<LoadError>))
    ensures r.1.Pass? <==>
      ConvertDatasetFormat(parsed).Success? && ValidateDataset(ConvertDatasetFormat(parsed).value).Success?
    ensures r.1.Pass? ==> r.0 == AppStore(ResetYear, Some(ConvertDatasetFormat(parsed).value))
    ensures r.1.Fail? ==> r.0 == st
    ensures r.1.Fail? && ConvertDatasetFormat(parsed).Failure? ==> r.1.error == ConvertDatasetFormat(parsed).error
    ensures r.1.Fail? && ConvertDatasetFormat(parsed).Success? ==>
      r.1.error == ValidateDataset(ConvertDatasetFormat(parsed).value).error
  {
    match ConvertDatasetFormat(parsed)
    case Failure(e) => (st, Fail(e))
    case Success(ds) =>
      match ValidateDataset(ds)
      case Failure(e) => (st, Fail(e))
      case Success(_) => (AppStore(ResetYear, Some(ds)), Pass)
  }
}

=== FILE: store_roundtrip.dfy ===
/**
 Round trips through the loader: a timeline written in either file format
 loads back as the same typed dataset.
 */
module StoreRoundTrip {
  import opened Wrappers
  import opened JsValues
  import opened TimelineTypes
  import opened Store

  /** One state's timeline, as a file lists it. */
  datatype StateEntry = StateEntry(name: string, changes: seq<StatusChange>)

  predicate DistinctNames(entries: seq<StateEntry>) {
    forall i, j :: 0 <= i < j < |entries| ==> entries[i].name != entries[j].name
  }

  /** `{year, status}` with numeric fields. */
  function EncodeChange(c: StatusChange): JsValue {
    Obj([Field("year", Num(c.year)), Field("status", Num(c.status))])
  }

  function EncodeChanges(changes: seq<StatusChange>): (r: seq<JsValue>)
    ensures |r| == |changes|
    ensures forall i :: 0 <= i < |changes| ==> r[i] == EncodeChange(changes[i])
  {
    seq(|changes|, i requires 0 <= i < |changes| => EncodeChange(changes[i]))
  }

  /** The canonical `states` object. */
  function CanonicalStates(entries: seq<StateEntry>): (r: seq<Field>)
    ensures |r| == |entries|
    ensures forall i :: 0 <= i < |entries| ==> r[i] == Field(entries[i].name, Arr(EncodeChanges(entries[i].changes)))
  {
    seq(|entries|, i requires 0 <= i < |entries| => Field(entries[i].name, Arr(EncodeChanges(entries[i].changes))))
  }

  /** A canonical file: `{factor, categories, states}`. */
  function EncodeCanonical(factor: string, categories: JsValue, entries: seq<StateEntry>): JsValue {
    Obj([Field("factor", Str(factor)), Field("categories", categories), Field("states", Obj(CanonicalStates(entries)))])
  }

  /** One legacy `{state, events}` record. */
  function LegacyRecord(e: StateEntry): JsValue {
    Obj([Field("state", Str(e.name)), Field("events", Arr(EncodeChanges(e.changes)))])
  }

  /** The legacy `data` array: `[{state, events}]`. */
  function LegacyData(entries: seq<StateEntry>): (r: seq<JsValue>)
    ensures |r| == |entries|
    ensures forall i :: 0 <= i < |entries| ==> r[i] == LegacyRecord(entries[i])
  {
    seq(|entries|, i requires 0 <= i < |entries| => LegacyRecord(entries[i]))
  }

  /** A legacy file with neither title, factor nor categories. */
  function EncodeLegacy(entries: seq<StateEntry>): JsValue {
    Obj([Field("data", Arr(LegacyData(entries)))])
  }

  /** The typed timeline the entries describe; a later entry for a name replaces
      an earlier one. */
  function ToTimeline(entries: seq<StateEntry>): (t: StateTimeline)
    ensures forall i :: 0 <= i < |entries| ==> entries[i].name in t
  {
    if |entries| == 0 then map[]
    else
      var last := entries[|entries| - 1];
      ToTimeline(entries[..|entries| - 1])[last.name := last.changes]
  }

  /** An event that is already canonical converts to itself. */
  lemma ConvertedEventFixpoint(c: StatusChange)
    ensures ConvertedEvent(EncodeChange(c)) == EncodeChange(c)
  {
    var e := EncodeChange(c);
    assert e.fields[0].key == "year" && e.fields[1].key == "status";
    assert Get(e, "year") == Num(c.year);
    assert Get(e, "status") == Num(c.status);
    assert !HasKey(e.fields, "sources");
  }

  lemma ConvertEncodedEvents(changes: seq<StatusChange>)
    ensures ConvertEvents(EncodeChanges(changes)) == Success(EncodeChanges(changes))
  {
    var events := EncodeChanges(changes);
    forall i | 0 <= i < |events| ensures !IsNullish(events[i]) && ConvertedEvent(events[i]) == events[i] {
      ConvertedEventFixpoint(changes[i]);
    }
    var r := ConvertEvents(events);
    assert r.value == events;
  }

  lemma ValidateEncodedEvents(state: string, changes: seq<StatusChange>)
    ensures ValidateEvents(state, EncodeChanges(changes)) == Success(changes)
  {
    var events := EncodeChanges(changes);
    forall i | 0 <= i < |events| ensures WellTypedEvent(events[i]) && ChangeOf(events[i]) == changes[i] {
      var e := events[i];
      assert e.fields[0].key == "year" && e.fields[1].key == "status";
      assert Get(e, "year") == Num(changes[i].year);
      assert Get(e, "status") == Num(changes[i].status);
    }
    var r := ValidateEvents(state, events);
    assert r.value == changes;
  }

  /** A legacy record converts to the canonical property for its state. */
  lemma ConvertLegacyRecord(e: StateEntry)
    ensures ConvertState(LegacyRecord(e)) == Success(Field(e.name, Arr(EncodeChanges(e.changes))))
  {
    var sd := LegacyRecord(e);
    assert sd.fields[0].key == "state" && sd.fields[1].key == "events";
    assert Get(sd, "state") == Str(e.name);
    assert Get(sd, "events") == Arr(EncodeChanges(e.changes));
    assert KeyString(Str(e.name)) == e.name;
    ConvertEncodedEvents(e.changes);
  }

  /** Every legacy record converts, each to its canonical property. */
  lemma ConvertLegacyList(entries: seq<StateEntry>)
    ensures ConvertStateList(LegacyData(entries)) == Success(CanonicalStates(entries))
  {
    var data := LegacyData(entries);
    var states := CanonicalStates(entries);
    forall i | 0 <= i < |data| ensures ConvertState(data[i]) == Success(states[i]) {
      ConvertLegacyRecord(entries[i]);
    }
    assert ConvertStateList(data).value == states;
  }

  /** The legacy `data` array converts to the canonical `states` object. */
  lemma ConvertLegacyData(entries: seq<StateEntry>)
    requires DistinctNames(entries)
    ensures ConvertStates(LegacyData(entries)) == Success(CanonicalStates(entries))
  {
    var states := CanonicalStates(entries);
    ConvertLegacyList(entries);
    assert DistinctKeys(states);
    PutAllFresh([], states);
    assert [] + states == states;
  }

  /** The canonical `states` object validates to the typed timeline. */
  lemma {:induction false} ValidateCanonicalStates(entries: seq<StateEntry>)
    ensures ValidateEntries(CanonicalStates(entries)) == Success(ToTimeline(entries))
  {
    if |entries| > 0 {
      var init := entries[..|entries| - 1];
      var last := entries[|entries| - 1];
      ValidateCanonicalStates(init);
      assert CanonicalStates(entries)[..|entries| - 1] == CanonicalStates(init);
      ValidateEncodedEvents(last.name, last.changes);
    }
  }

  /** A canonical file passes through conversion unchanged. */
  lemma CanonicalPassesThrough(factor: string, categories: JsValue, entries: seq<StateEntry>)
    ensures ConvertDatasetFormat(EncodeCanonical(factor, categories, entries)) == Success(EncodeCanonical(factor, categories, entries))
  {
    var v := EncodeCanonical(factor, categories, entries);
    assert v.fields[2].key == "states";
    assert Get(v, "states") == Obj(CanonicalStates(entries));
    assert !HasKey(v.fields, "data");
  }

  /** What `convertDatasetFormat` returns for legacy input whose records all
      convert: the literal `{factor, categories, states}`. */
  lemma LegacyOutput(v: JsValue)
    requires v.Obj? && Truthy(Get(v, "data")) && !Truthy(Get(v, "states")) && Get(v, "data").Arr?
    requires ConvertStates(Get(v, "data").items).Success?
    ensures ConvertDatasetFormat(v) == Success(Obj([
      Field("factor", LegacyFactor(v)),
      Field("categories", if Truthy(Get(v, "categories")) then Get(v, "categories") else DefaultCategories),
      Field("states", Obj(ConvertStates(Get(v, "data").items).value))]))
  {
  }

  /** A canonical file with a non-empty factor loads as exactly the timeline it lists. */
  lemma CanonicalRoundTrip(factor: string, categories: JsValue, entries: seq<StateEntry>)
    requires factor != ""
    ensures ValidateDataset(EncodeCanonical(factor, categories, entries))
      == Success(LegalDataset(Str(factor), categories, ToTimeline(entries)))
  {
    var v := EncodeCanonical(factor, categories, entries);
    assert v.fields[0].key == "factor" && v.fields[1].key == "categories" && v.fields[2].key == "states";
    ValidateCanonicalStates(entries);
    ValidateObject(v, CanonicalStates(entries));
  }

  /** `ValidateDataset` on an object whose factor is truthy and whose states are
      an object that validates. */
  lemma ValidateObject(ds: JsValue, states: seq<Field>)
    requires ds.Obj? && Truthy(Get(ds, "factor")) && Get(ds, "states") == Obj(states)
    requires ValidateEntries(states).Success?
    ensures ValidateDataset(ds) == Success(LegalDataset(Get(ds, "factor"), Get(ds, "categories"), ValidateEntries(states).value))
  {
  }

  /** A legacy file with numeric statuses and distinct state names converts to
      the canonical file of the same entries, with the default factor and
      categories. */
  lemma LegacyConvertsToCanonical(entries: seq<StateEntry>)
    requires DistinctNames(entries)
    ensures ConvertDatasetFormat(EncodeLegacy(entries)) == Success(EncodeCanonical(DefaultFactor, DefaultCategories, entries))
  {
    var v := EncodeLegacy(entries);
    assert v.fields[0].key == "data";
    assert Get(v, "data") == Arr(LegacyData(entries));
    assert !HasKey(v.fields, "states") && !HasKey(v.fields, "factor");
    assert !HasKey(v.fields, "title") && !HasKey(v.fields, "categories");
    ConvertLegacyData(entries);
    LegacyOutput(v);
  }

  /** Hence such a legacy file loads as the timeline it lists. */
  lemma LegacyRoundTrip(entries: seq<StateEntry>)
    requires DistinctNames(entries)
    ensures ConvertDatasetFormat(EncodeLegacy(entries)).Success?
    ensures ValidateDataset(ConvertDatasetFormat(EncodeLegacy(entries)).value)
      == Success(LegalDataset(Str(DefaultFactor), DefaultCategories, ToTimeline(entries)))
  {
    LegacyConvertsToCanonical(entries);
    CanonicalRoundTrip(DefaultFactor, DefaultCategories, entries);
  }

  /** Loading a legacy file commits it and resets the year to 2020. */
  lemma LoadLegacyCommits(st: AppStore, entries: seq<StateEntry>)
    requires DistinctNames(entries)
    ensures LoadDatasetFile(st, EncodeLegacy(entries)).1 == Pass
    ensures LoadDatasetFile(st, EncodeLegacy(entries)).0.year == ResetYear
  {
    LegacyRoundTrip(entries);
  }

  /** One legacy event with a numeric year and a string or numeric status
      converts to an event that passes validation, with the status coded. */
  lemma ConvertedEventValidates(e: JsValue)
    requires !IsNullish(e)
    requires Get(e, "year").Num?
    requires Get(e, "status").Str? || Get(e, "status").Num?
    ensures WellTypedEvent(ConvertedEvent(e))
    ensures ChangeOf(ConvertedEvent(e)) == StatusChange(Get(e, "year").n, CodeStatus(Get(e, "status")).n)
  {
  }

  /** The upload of `{"invalid": "data"}` is rejected with a format error and the
      previously loaded dataset stays. */
  lemma InvalidUploadKeepsDataset(st: AppStore)
    ensures var r := LoadDatasetFile(st, Obj([Field("invalid", Str("data"))]));
      r.0 == st && r.1 == Fail(InvalidFormat) && "Invalid dataset format" <= Message(r.1.error)
  {
    var v := Obj([Field("invalid", Str("data"))]);
    assert !HasKey(v.fields, "states") && !HasKey(v.fields, "data");
  }

  /** A state name that is an object with its own `toString` property, directly
      or inside an array, makes `states[stateName] = events` throw: the upload
      fails with a TypeError and the store keeps its dataset. */
  lemma ToStringStateRejected(st: AppStore, name: JsValue)
    requires name == Obj([Field("toString", Num(1))]) || name == Arr([Str("CA"), Obj([Field("toString", Num(1))])])
    ensures var v := Obj([Field("data", Arr([Obj([Field("state", name), Field("events", Arr([]))])]))]);
      LoadDatasetFile(st, v) == (st, Fail(TypeError))
  {
    var sd := Obj([Field("state", name), Field("events", Arr([]))]);
    var v := Obj([Field("data", Arr([sd]))]);
    assert sd.fields[0].key == "state" && sd.fields[1].key == "events";
    GetField(sd, "state", 0);
    var bad := Obj([Field("toString", Num(1))]);
    assert bad.fields[0].key == "toString";
    assert KeyThrows(bad);
    assert name.Arr? ==> name.items[1] == bad;
    assert ConvertState(sd) == Failure(TypeError);
    assert v.fields[0].key == "data";
    GetAbsent(v, "states");
  }

  /** A legacy file with a title and an empty `data` array is accepted: the
      empty array is truthy, so it converts to a dataset with the title as its
      factor and no states, and loading it replaces the current dataset. */
  lemma EmptyLegacyUploadLoads(st: AppStore)
    ensures var v := Obj([Field("title", Str("Incomplete Dataset")), Field("data", Arr([]))]);
      var r := LoadDatasetFile(st, v);
      && r.1 == Pass
      && r.0.dataset.Some?
      && ValidateDataset(r.0.dataset.value) == Success(LegalDataset(Str("Incomplete Dataset"), DefaultCategories, map[]))
  {
    var v := Obj([Field("title", Str("Incomplete Dataset")), Field("data", Arr([]))]);
    assert v.fields[0].key == "title" && v.fields[1].key == "data";
    assert !HasKey(v.fields, "states") && !HasKey(v.fields, "factor") && !HasKey(v.fields, "categories");
    assert ConvertStates([]) == Success([]);
    assert LegacyFactor(v) == Str("Incomplete Dataset");
    LegacyOutput(v);
    var out := ConvertDatasetFormat(v).value;
    assert out.fields[0].key == "factor" && out.fields[1].key == "categories" && out.fields[2].key == "states";
    ValidateObject(out, []);
  }

  /** A canonical file whose states fail validation is rejected with the error of
      the first failing state, and the store keeps its dataset. */
  lemma LoadReportsFirstBadState(st: AppStore, v: JsValue, i: nat)
    requires v.Obj? && Truthy(Get(v, "factor")) && Get(v, "states").Obj? && !Truthy(Get(v, "data"))
    requires i < |Get(v, "states").fields|
    requires forall j :: 0 <= j < i ==> ValidEntry(Get(v, "states").fields[j])
    requires !ValidEntry(Get(v, "states").fields[i])
    ensures LoadDatasetFile(st, v) == (st, Fail(EntryError(Get(v, "states").fields[i])))
  {
    ValidateEntriesFirstFailure(Get(v, "states").fields, i);
  }

  // ---------------------------------------------------------------------------
  // Legacy files as written: string or numeric statuses, any factor and title
  // ---------------------------------------------------------------------------

  /** A legacy event: a numeric year and a status that is a string or a number. */
  datatype RawChange = RawChange(year: int, status: JsValue)

  predicate RawStatus(c: RawChange) {
    c.status.Str? || c.status.Num?
  }

  /** One state of a legacy file. */
  datatype RawEntry = RawEntry(name: string, changes: seq<RawChange>)

  predicate RawEntries(entries: seq<RawEntry>) {
    forall i, j :: 0 <= i < |entries| && 0 <= j < |entries[i].changes| ==> RawStatus(entries[i].changes[j])
  }

  /** The typed change a legacy event stands for, with its status coded. */
  function Coded(c: RawChange): StatusChange
    requires RawStatus(c)
  {
    StatusChange(c.year, CodeStatus(c.status).n)
  }

  function CodedEntries(entries: seq<RawEntry>): (r: seq<StateEntry>)
    requires RawEntries(entries)
    ensures |r| == |entries|
    ensures forall i :: 0 <= i < |entries| ==> r[i].name == entries[i].name
    ensures forall i :: 0 <= i < |entries| ==> |r[i].changes| == |entries[i].changes|
    ensures forall i, j :: 0 <= i < |entries| && 0 <= j < |entries[i].changes| ==>
      r[i].changes[j] == Coded(entries[i].changes[j])
  {
    seq(|entries|, i requires 0 <= i < |entries| =>
      StateEntry(entries[i].name, seq(|entries[i].changes|, j requires 0 <= j < |entries[i].changes| =>
        Coded(entries[i].changes[j]))))
  }

  function EncodeRawChange(c: RawChange): JsValue {
    Obj([Field("year", Num(c.year)), Field("status", c.status)])
  }

  function RawEvents(changes: seq<RawChange>): (r: seq<JsValue>)
    ensures |r| == |changes|
    ensures forall j :: 0 <= j < |changes| ==> r[j] == EncodeRawChange(changes[j])
  {
    seq(|changes|, j requires 0 <= j < |changes| => EncodeRawChange(changes[j]))
  }

  function RawRecord(e: RawEntry): JsValue {
    Obj([Field("state", Str(e.name)), Field("events", Arr(RawEvents(e.changes)))])
  }

  /** The legacy `data` array. */
  function RawData(entries: seq<RawEntry>): (r: seq<JsValue>)
    ensures |r| == |entries|
    ensures forall i :: 0 <= i < |entries| ==> r[i] == RawRecord(entries[i])
  {
    seq(|entries|, i requires 0 <= i < |entries| => RawRecord(entries[i]))
  }

  /** A legacy file; a field whose value is `Absent` stands for a missing one. */
  function LegacyFile(factor: JsValue, title: JsValue, categories: JsValue, entries: seq<RawEntry>): JsValue {
    Obj([Field("factor", factor), Field("title", title), Field("categories", categories),
         Field("data", Arr(RawData(entries)))])
  }

  /** A legacy event converts to the canonical event of its coded change. */
  lemma ConvertRawChange(c: RawChange)
    requires RawStatus(c)
    ensures ConvertedEvent(EncodeRawChange(c)) == EncodeChange(Coded(c))
  {
    var e := EncodeRawChange(c);
    assert e.fields[0].key == "year" && e.fields[1].key == "status";
    assert Get(e, "year") == Num(c.year);
    assert Get(e, "status") == c.status;
    assert !HasKey(e.fields, "sources");
  }

  /** Legacy events convert to the canonical events of their coded changes. */
  lemma ConvertRawEvents(changes: seq<RawChange>, coded: seq<StatusChange>)
    requires |coded| == |changes|
    requires forall j :: 0 <= j < |changes| ==> RawStatus(changes[j]) && coded[j] == Coded(changes[j])
    ensures ConvertEvents(RawEvents(changes)) == Success(EncodeChanges(coded))
  {
    var events := RawEvents(changes);
    forall j | 0 <= j < |events| ensures !IsNullish(events[j]) && ConvertedEvent(events[j]) == EncodeChange(coded[j]) {
      ConvertRawChange(changes[j]);
    }
    assert ConvertEvents(events).value == EncodeChanges(coded);
  }

  /** A legacy record converts to the canonical property of its coded entry. */
  lemma ConvertRawRecord(e: RawEntry, coded: StateEntry)
    requires coded.name == e.name && |coded.changes| == |e.changes|
    requires forall j :: 0 <= j < |e.changes| ==> RawStatus(e.changes[j]) && coded.changes[j] == Coded(e.changes[j])
    ensures ConvertState(RawRecord(e)) == Success(Field(e.name, Arr(EncodeChanges(coded.changes))))
  {
    var sd := RawRecord(e);
    assert sd.fields[0].key == "state" && sd.fields[1].key == "events";
    assert Get(sd, "state") == Str(e.name);
    assert Get(sd, "events") == Arr(RawEvents(e.changes));
    assert KeyString(Str(e.name)) == e.name;
    ConvertRawEvents(e.changes, coded.changes);
  }

  /** The legacy `data` array converts to the canonical `states` of the coded entries. */
  lemma ConvertRawData(entries: seq<RawEntry>)
    requires RawEntries(entries)
    requires forall i, j :: 0 <= i < j < |entries| ==> entries[i].name != entries[j].name
    ensures ConvertStates(RawData(entries)) == Success(CanonicalStates(CodedEntries(entries)))
  {
    var data := RawData(entries);
    var coded := CodedEntries(entries);
    var states := CanonicalStates(coded);
    forall i | 0 <= i < |data| ensures ConvertState(data[i]) == Success(states[i]) {
      ConvertRawRecord(entries[i], coded[i]);
    }
    ConvertStateListOf(data, states);
    assert DistinctKeys(states);
    ConvertStatesFresh(data, states);
  }

  /** The record list converts to the given properties when each record does. */
  lemma ConvertStateListOf(data: seq<JsValue>, states: seq<Field>)
    requires |data| == |states|
    requires forall i :: 0 <= i < |data| ==> ConvertState(data[i]) == Success(states[i])
    ensures ConvertStateList(data) == Success(states)
  {
    assert ConvertStateList(data).value == states;
  }

  /** Properties with distinct keys are assigned into `states` in order. */
  lemma ConvertStatesFresh(data: seq<JsValue>, states: seq<Field>)
    requires ConvertStateList(data) == Success(states)
    requires DistinctKeys(states)
    ensures ConvertStates(data) == Success(states)
  {
    PutAllFresh([], states);
    assert [] + states == states;
  }

  /** A legacy file with distinct state names, numeric years and string or
      numeric statuses converts to the canonical file of its coded entries, with
      the legacy factor and the given or default categories. */
  lemma LegacyFileConverts(factor: JsValue, title: JsValue, categories: JsValue, entries: seq<RawEntry>)
    requires RawEntries(entries)
    requires forall i, j :: 0 <= i < j < |entries| ==> entries[i].name != entries[j].name
    ensures var v := LegacyFile(factor, title, categories, entries);
      ConvertDatasetFormat(v) == Success(Obj([
        Field("factor", LegacyFactor(v)),
        Field("categories", if Truthy(categories) then categories else DefaultCategories),
        Field("states", Obj(CanonicalStates(CodedEntries(entries))))]))
  {
    var v := LegacyFile(factor, title, categories, entries);
    assert v.fields[0].key == "factor" && v.fields[1].key == "title";
    assert v.fields[2].key == "categories" && v.fields[3].key == "data";
    assert !HasKey(v.fields, "states");
    assert Get(v, "categories") == categories;
    assert Get(v, "data") == Arr(RawData(entries));
    ConvertRawData(entries);
    LegacyOutput(v);
  }

  /** Such a file loads: the store commits it with the year reset, and it
      validates to the timeline of its coded entries. */
  lemma LegacyFileLoads(st: AppStore, factor: JsValue, title: JsValue, categories: JsValue, entries: seq<RawEntry>)
    requires RawEntries(entries)
    requires forall i, j :: 0 <= i < j < |entries| ==> entries[i].name != entries[j].name
    ensures var v := LegacyFile(factor, title, categories, entries);
      && LoadDatasetFile(st, v).1 == Pass
      && LoadDatasetFile(st, v).0 == AppStore(ResetYear, Some(ConvertDatasetFormat(v).value))
      && ValidateDataset(ConvertDatasetFormat(v).value) == Success(LegalDataset(
           LegacyFactor(v),
           if Truthy(categories) then categories else DefaultCategories,
           ToTimeline(CodedEntries(entries))))
  {
    var v := LegacyFile(factor, title, categories, entries);
    LegacyFileConverts(factor, title, categories, entries);
    var ds := ConvertDatasetFormat(v).value;
    assert ds.fields[0].key == "factor" && ds.fields[1].key == "categories" && ds.fields[2].key == "states";
    ValidateCanonicalStates(CodedEntries(entries));
    ValidateObject(ds, CanonicalStates(CodedEntries(entries)));
  }

  /** A string where the states object belongs is enumerated by character:
      its first entry, "0", is not an array, so the load fails naming state 0. */
  lemma StringStatesRejected()
    ensures ValidateDataset(Obj([Field("factor", Str("f")), Field("states", Str("ab"))]))
      == Failure(InvalidEvents("0"))
  {
    var ds := Obj([Field("factor", Str("f")), Field("states", Str("ab"))]);
    assert DistinctKeys(ds.fields);
    GetField(ds, "factor", 0);
    GetField(ds, "states", 1);
    StringEntriesFail("ab");
    ValidateDatasetEntriesFail(ds);
  }

  /** With a truthy factor and truthy states, a failing entry check is the
      failure of the whole validation. */
  lemma ValidateDatasetEntriesFail(ds: JsValue)
    requires ds.Obj? && Truthy(Get(ds, "factor")) && Truthy(Get(ds, "states"))
    requires ValidateEntries(ObjectEntries(Get(ds, "states"))).Failure?
    ensures ValidateDataset(ds) == Failure(ValidateEntries(ObjectEntries(Get(ds, "states"))).error)
  {
  }

  /** The entries of a non-empty string fail at the first character. */
  lemma StringEntriesFail(s: string)
    requires |s| > 0
    ensures ValidateEntries(ObjectEntries(Str(s))) == Failure(InvalidEvents("0"))
  {
    var es := ObjectEntries(Str(s));
    assert es[0] == Field("0", Str([s[0]]));
    ValidateEntriesFirstFailure(es, 0);
  }
}

=== FILE: timeline_player.dfy ===
/**
 The auto-advance timeline control as a deterministic state machine.

 The host owns the year: it passes it in as `value` and receives requested
 years through `onChange`. The player owns the playing flag, the speed, and
 one interval timer (`intervalRef`). Each event below is one React event or
 effect run; `Step` returns the new state and the years passed to
 `onChange`, in order. Timer periods are abstract: a `Tick` is the live
 interval firing, whatever its period.
 */
module TimelinePlayer {
  import JsValues

  /** The multipliers the speed buttons offer. */
  type Speed = s: int | s == 1 || s == 2 || s == 4 || s == 6 || s == 10 witness 1

  /** `value` is the host's year (mirrored into `currentYearRef` by an effect);
      `timer` says `intervalRef.current` holds a live interval; `leaked` counts
      live intervals no ref points to any more; `mounted` turns false on unmount. */
  datatype Player = Player(value: int, isPlaying: bool, speed: Speed, timer: bool, leaked: nat, mounted: bool)

  datatype Event =
    | Toggle                    // click on the play/pause button
    | Tick                      // the live interval fires
    | HostValue(year: int)      // the host re-renders with a new `value`
    | SpeedChange(speed: Speed) // click on a speed button
    | Slider(year: int)         // the range input reports a position
    | Unmount

  /** Freshly mounted: paused at speed 1 with no timer. */
  function Mount(value: int): Player {
    Player(value, false, 1, false, 0, true)
  }

  /** At most one live interval, and it runs exactly while playing; a playing
      player is below the maximum year. */
  predicate Inv(p: Player, maxYear: int) {
    && p.leaked == 0
    && (p.timer ==> p.mounted)
    && (p.mounted ==> (p.timer <==> p.isPlaying))
    && (p.isPlaying ==> p.value < maxYear)
  }

  /** `clearInterval(intervalRef.current)` when the ref is set. */
  function ClearTimer(p: Player): Player {
    p.(timer := false)
  }

  /** `intervalRef.current = setInterval(...)`: an interval the ref still held is
      not cleared and keeps running unreferenced. */
  function StartTimer(p: Player): Player {
    if p.timer then p.(leaked := p.leaked + 1) else p.(timer := true)
  }

  /** The interval callback: request the next year, or at the end request the
      maximum and stop. */
  function TickBody(p: Player, maxYear: int): (r: (Player, seq<int>))
    ensures |r.1| == 1 && r.1[0] <= maxYear
  {
    var next := p.value + 1;
    if next > maxYear then (ClearTimer(p.(isPlaying := false)), [maxYear])
    else (p, [next])
  }

  /** The effect on `[value, maxYear, isPlaying]`: stop once the host's year has
      reached the maximum while playing. */
  function BoundaryEffect(p: Player, maxYear: int): (r: Player)
    ensures r.value == p.value && r.speed == p.speed && r.mounted == p.mounted && r.leaked == p.leaked
    ensures r.isPlaying ==> r.value < maxYear
    ensures !p.isPlaying || p.value < maxYear ==> r == p
    ensures p.isPlaying && p.value >= maxYear ==> !r.isPlaying && !r.timer
  {
    if p.value >= maxYear && p.isPlaying then ClearTimer(p.(isPlaying := false)) else p
  }

  /** The play/pause button is disabled at or beyond the maximum year. */
  predicate PlayDisabled(p: Player, maxYear: int) {
    p.value >= maxYear
  }

  /** One event. */
  function Step(p: Player, e: Event, maxYear: int): (r: (Player, seq<int>))
    // the invariant is preserved by every event
    ensures Inv(p, maxYear) ==> Inv(r.0, maxYear)
    // nothing happens after unmount
    ensures !p.mounted ==> r == (p, [])
    // ticks: never above the maximum; the next year while below it; the maximum
    // and a stop beyond it; nothing without a live timer
    ensures e.Tick? ==> forall i :: 0 <= i < |r.1| ==> r.1[i] <= maxYear
    ensures e.Tick? && p.mounted && p.timer && p.value + 1 <= maxYear ==> r == (p, [p.value + 1])
    ensures e.Tick? && p.mounted && p.timer && p.value + 1 > maxYear ==>
      r.1 == [maxYear] && r.0 == p.(isPlaying := false, timer := false)
    ensures e.Tick? && !p.timer ==> r == (p, [])
    // toggle: ignored while disabled; pause stops the timer; play starts exactly one
    ensures e.Toggle? && PlayDisabled(p, maxYear) ==> r == (p, [])
    ensures e.Toggle? && p.mounted && !PlayDisabled(p, maxYear) && p.isPlaying ==>
      r.0 == p.(isPlaying := false, timer := false) && r.1 == []
    ensures e.Toggle? && p.mounted && !PlayDisabled(p, maxYear) && !p.isPlaying && !p.timer ==>
      r.0.isPlaying && r.0.timer && r.0.leaked == p.leaked && r.1 == []
    ensures e.Toggle? ==> r.0.value == p.value && r.0.speed == p.speed && r.0.mounted == p.mounted
    // host update: the new baseline; reaching the maximum stops playback
    ensures e.HostValue? && p.mounted ==> r.0.value == e.year && r.1 == []
    ensures e.HostValue? && p.mounted && e.year < maxYear ==> r.0 == p.(value := e.year)
    ensures e.HostValue? && p.mounted && e.year >= maxYear ==>
      !r.0.isPlaying && (p.isPlaying ==> !r.0.timer) && (!p.isPlaying ==> r.0 == p.(value := e.year))
    ensures e.HostValue? ==> r.0.speed == p.speed && r.0.mounted == p.mounted && r.0.leaked == p.leaked
    // speed change: replaces the live timer while playing, starts none while paused
    ensures e.SpeedChange? && p.mounted ==> r.0.speed == e.speed && r.0.leaked == p.leaked && r.1 == []
    ensures e.SpeedChange? && e.speed == p.speed ==> r == (p, [])
    ensures e.SpeedChange? && p.mounted && p.isPlaying && e.speed != p.speed ==> r.0.timer
    ensures e.SpeedChange? && p.mounted && !p.isPlaying ==> r.0.timer == p.timer
    ensures e.SpeedChange? && p.mounted ==> r.0.value == p.value && r.0.isPlaying == p.isPlaying && r.0.mounted
    // slider: passes the position on and changes nothing
    ensures e.Slider? && p.mounted ==> r == (p, [e.year])
    // unmount: no timer survives
    ensures e.Unmount? && p.mounted ==> r.0 == p.(timer := false, mounted := false) && r.1 == []
  {
    if !p.mounted then (p, [])
    else
      match e
      case Toggle =>
        if PlayDisabled(p, maxYear) then (p, [])
        else if p.isPlaying then (ClearTimer(p).(isPlaying := false), [])
        else (BoundaryEffect(StartTimer(p.(isPlaying := true)), maxYear), [])
      case Tick =>
        if p.timer then TickBody(p, maxYear) else (p, [])
      case HostValue(year) =>
        (BoundaryEffect(p.(value := year), maxYear), [])
      case SpeedChange(speed) =>
        // React skips the effect when the speed does not change
        if speed == p.speed then (p, [])
        else if p.isPlaying then (StartTimer(ClearTimer(p.(speed := speed))), [])
        else (p.(speed := speed), [])
      case Slider(year) =>
        (p, [year])
      case Unmount =>
        (ClearTimer(p).(mounted := false), [])
  }

  /** A sequence of events; the years emitted are concatenated in order. */
  function Run(p: Player, events: seq<Event>, maxYear: int): (Player, seq<int>)
    decreases |events|
  {
    if |events| == 0 then (p, [])
    else
      var (p1, out1) := Step(p, events[0], maxYear);
      var (p2, out2) := Run(p1, events[1..], maxYear);
      (p2, out1 + out2)
  }

  /** The invariant holds after any sequence of events from a freshly mounted player. */
  lemma {:induction false} RunPreservesInv(p: Player, events: seq<Event>, maxYear: int)
    requires Inv(p, maxYear)
    ensures Inv(Run(p, events, maxYear).0, maxYear)
    decreases |events|
  {
    if |events| > 0 {
      RunPreservesInv(Step(p, events[0], maxYear).0, events[1..], maxYear);
    }
  }

  lemma MountSatisfiesInv(value: int, maxYear: int)
    ensures Inv(Mount(value), maxYear)
  {
  }

  /** The only years ever requested above the maximum come from the slider; the
      range input never reports a position above its `max`. */
  lemma {:induction false} RunNeverExceedsMax(p: Player, events: seq<Event>, maxYear: int)
    requires forall i :: 0 <= i < |events| && events[i].Slider? ==> events[i].year <= maxYear
    ensures forall i :: 0 <= i < |Run(p, events, maxYear).1| ==> Run(p, events, maxYear).1[i] <= maxYear
    decreases |events|
  {
    if |events| > 0 {
      var (p1, out1) := Step(p, events[0], maxYear);
      RunNeverExceedsMax(p1, events[1..], maxYear);
      var out2 := Run(p1, events[1..], maxYear).1;
      assert Run(p, events, maxYear).1 == out1 + out2;
    }
  }

  function Ticks(n: nat): (ts: seq<Event>)
    ensures |ts| == n && forall i :: 0 <= i < n ==> ts[i] == Tick
  {
    seq(n, _ => Tick)
  }

  /** After a pause no tick requests anything. */
  lemma {:induction false} PausedPlayerIsSilent(p: Player, n: nat, maxYear: int)
    requires !p.timer
    ensures Run(p, Ticks(n), maxYear) == (p, [])
    decreases n
  {
    if n > 0 {
      assert Ticks(n)[0] == Tick && Ticks(n)[1..] == Ticks(n - 1);
      assert Step(p, Tick, maxYear) == (p, []);
      PausedPlayerIsSilent(p, n - 1, maxYear);
      assert Run(p, Ticks(n), maxYear).1 == [] + Run(p, Ticks(n - 1), maxYear).1;
    } else {
      assert Ticks(n) == [];
    }
  }

  /** Play, then pause: however many periods pass afterwards, nothing is requested. */
  lemma PlayPauseStopsAdvancing(value: int, maxYear: int, n: nat)
    requires value < maxYear
    ensures Run(Mount(value), [Toggle, Toggle] + Ticks(n), maxYear).1 == []
  {
    var events := [Toggle, Toggle] + Ticks(n);
    var p1 := Step(Mount(value), Toggle, maxYear).0;
    var p2 := Step(p1, Toggle, maxYear).0;
    assert events[0] == Toggle && events[1..][0] == Toggle && events[1..][1..] == Ticks(n);
    PausedPlayerIsSilent(p2, n, maxYear);
  }

  /** `lo, lo + 1, ..., hi`. */
  function Years(lo: int, hi: int): (ys: seq<int>)
    ensures |ys| == if lo <= hi then hi - lo + 1 else 0
    ensures forall i :: 0 <= i < |ys| ==> ys[i] == lo + i
    decreases hi - lo
  {
    if lo > hi then [] else [lo] + Years(lo + 1, hi)
  }

  /** `n` tick periods with a host that accepts every requested year. */
  function AcceptingHost(p: Player, n: nat, maxYear: int): (Player, seq<int>)
    decreases n
  {
    if n == 0 then (p, [])
    else
      var (p1, out1) := Step(p, Tick, maxYear);
      var p2 := if |out1| == 0 then p1 else Step(p1, HostValue(out1[|out1| - 1]), maxYear).0;
      var (p3, out) := AcceptingHost(p2, n - 1, maxYear);
      (p3, out1 + out)
  }

  /** Playing from `value` with a host that accepts every request emits every
      following year up to the maximum, then stops with the timer cleared. */
  lemma {:induction false} PlaysToMaximum(p: Player, maxYear: int)
    requires Inv(p, maxYear) && p.mounted && p.isPlaying
    ensures var (q, out) := AcceptingHost(p, maxYear - p.value, maxYear);
      && out == Years(p.value + 1, maxYear)
      && q.value == maxYear && !q.isPlaying && !q.timer && q.mounted && Inv(q, maxYear)
    decreases maxYear - p.value
  {
    var n := maxYear - p.value;
    var (p1, out1) := Step(p, Tick, maxYear);
    assert out1 == [p.value + 1];
    var p2 := Step(p1, HostValue(p.value + 1), maxYear).0;
    if p.value + 1 < maxYear {
      PlaysToMaximum(p2, maxYear);
      assert Years(p.value + 1, maxYear) == [p.value + 1] + Years(p.value + 2, maxYear);
    } else {
      assert AcceptingHost(p2, 0, maxYear) == (p2, []);
    }
  }

  /** Three periods from 1900 with maximum 1903 request 1901, 1902, 1903, then stop. */
  lemma PlayToThePresentScenario()
    ensures var p := Step(Mount(1900), Toggle, 1903).0;
      var (q, out) := AcceptingHost(p, 3, 1903);
      out == [1901, 1902, 1903] && !q.isPlaying && Step(q, Tick, 1903).1 == []
  {
    var p := Step(Mount(1900), Toggle, 1903).0;
    PlaysToMaximum(p, 1903);
  }

  // ---------------------------------------------------------------------------
  // What the control shows
  // ---------------------------------------------------------------------------

  datatype Caption = PlayingAt(speed: Speed) | ReachedMaximum | PlayOrScrub

  /** The caption's text: the speed reads back from "Playing at <n>x", and the
      three captions never read alike. */
  function CaptionText(c: Caption): (t: string)
    ensures c.PlayingAt? ==> (|t| >= 12 && t[..11] == "Playing at " && t[|t| - 1] == 'x'
      && JsValues.IsDigits(t[11..|t| - 1]) && JsValues.DecValue(t[11..|t| - 1]) == c.speed)
    ensures c == ReachedMaximum ==> t == "Reached maximum year"
    ensures c == PlayOrScrub ==> t == "Play or drag to scrub"
  {
    match c
    case PlayingAt(speed) =>
      var digits := JsValues.NatToString(speed);
      var t := "Playing at " + digits + "x";
      assert t[..11] == "Playing at " && t[11..|t| - 1] == digits;
      t
    case ReachedMaximum => "Reached maximum year"
    case PlayOrScrub => "Play or drag to scrub"
  }

  /** Different captions never show the same text. */
  lemma CaptionTextInjective(c1: Caption, c2: Caption)
    requires CaptionText(c1) == CaptionText(c2)
    ensures c1 == c2
  {
    var t := CaptionText(c1);
    if c1.PlayingAt? && c2.PlayingAt? {
      assert JsValues.DecValue(t[11..|t| - 1]) == c1.speed == c2.speed;
    } else if c1.PlayingAt? || c2.PlayingAt? {
      assert false;
    }
  }

  datatype View = View(caption: Caption, buttonLabel: string, playDisabled: bool)

  /** The caption, the button's accessible label and whether it is disabled. */
  function Render(p: Player, maxYear: int): (v: View)
    ensures v.buttonLabel == (if p.isPlaying then "Pause" else "Play")
    ensures v.playDisabled <==> p.value >= maxYear
    ensures !p.isPlaying ==> (v.caption == ReachedMaximum <==> p.value >= maxYear)
    ensures !p.isPlaying && p.value < maxYear ==> v.caption == PlayOrScrub
    ensures v.caption.PlayingAt? <==> p.isPlaying
    ensures v.caption.PlayingAt? ==> v.caption.speed == p.speed
    ensures Inv(p, maxYear) ==> (v.playDisabled <==> v.caption == ReachedMaximum)
    ensures Inv(p, maxYear) && p.isPlaying ==> !v.playDisabled
  {
    var caption :=
      if p.isPlaying then PlayingAt(p.speed)
      else if p.value >= maxYear then ReachedMaximum
      else PlayOrScrub;
    View(caption, if p.isPlaying then "Pause" else "Play", PlayDisabled(p, maxYear))
  }

  /** From 2022 with maximum 2023: one period requests 2023; once the host shows
      2023 the button reads "Play", is disabled and the caption says the maximum
      is reached; a host year of 2020 enables the button again. */
  lemma EndOfTimelineScenario()
    ensures var p := Step(Mount(2022), Toggle, 2023).0;
      var (p1, out) := Step(p, Tick, 2023);
      var q := Step(p1, HostValue(2023), 2023).0;
      && out == [2023]
      && Render(q, 2023) == View(ReachedMaximum, "Play", true)
      && !Render(Step(q, HostValue(2020), 2023).0, 2023).playDisabled
  {
  }
}

=== FILE: timeline_types.dfy ===
/**
 The dataset types and the status resolver (`getStatusForYear`).

 A state's change list is a sparse sequence of `{year, status}` records; the
 status in force in a year is the one set by the most recent change at or
 before it, 0 before the first change.
 */
module TimelineTypes {
  import opened JsValues

  datatype StatusChange = StatusChange(year: int, status: int)

  /** State key (FIPS code, postal code or name) to its change list. */
  type StateTimeline = map<string, seq<StatusChange>>

  /** The loader checks only that `factor` is truthy and never looks at
      `categories`, so both stay JavaScript values. */
  datatype LegalDataset = LegalDataset(factor: JsValue, categories: JsValue, states: StateTimeline)

  /** Changes listed in ascending year order, as the data files are written. */
  predicate Sorted(changes: seq<StatusChange>) {
    forall i, j :: 0 <= i < j < |changes| ==> changes[i].year <= changes[j].year
  }

  /** Ascending with no two changes in the same year. */
  predicate StrictlySorted(changes: seq<StatusChange>) {
    forall i, j :: 0 <= i < j < |changes| ==> changes[i].year < changes[j].year
  }

  /** Length of the longest prefix whose every change is at or before `year`:
      the entries the scan of `getStatusForYear` visits before it breaks. */
  function QualifyingPrefix(changes: seq<StatusChange>, year: int): (k: nat)
    ensures k <= |changes|
    ensures forall i :: 0 <= i < k ==> changes[i].year <= year
    ensures k < |changes| ==> changes[k].year > year
  {
    if |changes| == 0 || changes[0].year > year then 0
    else 1 + QualifyingPrefix(changes[1..], year)
  }

  /** The `for ... of` loop with its `break`: `status` is `mostRecentStatus`. */
  function Scan(changes: seq<StatusChange>, year: int, status: int): (r: int)
    ensures r == status || exists i :: 0 <= i < |changes| && changes[i].year <= year && r == changes[i].status
    ensures (forall i :: 0 <= i < |changes| ==> changes[i].year > year) ==> r == status
  {
    if |changes| == 0 then status
    else if changes[0].year <= year then Scan(changes[1..], year, changes[0].status)
    else status
  }

  /** The status in force for `state` in `year`. */
  function GetStatusForYear(state: string, year: int, ds: LegalDataset): (r: int)
    ensures state !in ds.states || |ds.states[state]| == 0 ==> r == 0
    ensures state in ds.states ==>
      var changes := ds.states[state];
      var k := QualifyingPrefix(changes, year);
      r == if k == 0 then 0 else changes[k - 1].status
    ensures state in ds.states && |ds.states[state]| > 0 && year < ds.states[state][0].year ==> r == 0
    ensures r == 0 || (state in ds.states && exists i :: 0 <= i < |ds.states[state]| && r == ds.states[state][i].status)
  {
    if state !in ds.states || |ds.states[state]| == 0 then 0
    else
      var changes := ds.states[state];
      ScanIsLastOfPrefix(changes, year, 0);
      Scan(changes, year, 0)
  }

  /** The scan returns the status of the last change in the qualifying prefix,
      or the status it started with when that prefix is empty. */
  lemma {:induction false} ScanIsLastOfPrefix(changes: seq<StatusChange>, year: int, status: int)
    ensures var k := QualifyingPrefix(changes, year);
      Scan(changes, year, status) == if k == 0 then status else changes[k - 1].status
  {
    if |changes| > 0 && changes[0].year <= year {
      ScanIsLastOfPrefix(changes[1..], year, changes[0].status);
    }
  }

  /** Reference definition: the status of the last change in list order whose
      year is at or before `year`, wherever it stands in the list. */
  function LastQualifying(changes: seq<StatusChange>, year: int): (r: int)
    ensures r == 0 || exists i :: 0 <= i < |changes| && changes[i].year <= year && r == changes[i].status
  {
    if |changes| == 0 then 0
    else if changes[|changes| - 1].year <= year then changes[|changes| - 1].status
    else LastQualifying(changes[..|changes| - 1], year)
  }

  /** When every change after position `k` is later than `year`, the reference
      definition picks the change just before `k`. */
  lemma {:induction false} LastQualifyingOfPrefix(changes: seq<StatusChange>, year: int, k: nat)
    requires k <= |changes|
    requires k > 0 ==> changes[k - 1].year <= year
    requires forall i :: k <= i < |changes| ==> changes[i].year > year
    requires k == 0 ==> forall i :: 0 <= i < |changes| ==> changes[i].year > year
    ensures LastQualifying(changes, year) == if k == 0 then 0 else changes[k - 1].status
    decreases |changes|
  {
    if |changes| > 0 && k < |changes| {
      var init := changes[..|changes| - 1];
      LastQualifyingOfPrefix(init, year, k);
    }
  }

  /** On a list sorted ascending by year, the scan with its early `break` agrees
      with the reference definition. */
  lemma SortedScanIsLastQualifying(changes: seq<StatusChange>, year: int)
    requires Sorted(changes)
    ensures Scan(changes, year, 0) == LastQualifying(changes, year)
  {
    var k := QualifyingPrefix(changes, year);
    ScanIsLastOfPrefix(changes, year, 0);
    LastQualifyingOfPrefix(changes, year, k);
  }

  /** Without sortedness the two differ: the scan stops at 2010 and never sees
      the 2005 change that follows it. */
  lemma UnsortedScanStopsEarly()
    ensures var changes := [StatusChange(2000, 1), StatusChange(2010, 2), StatusChange(2005, 3)];
      Scan(changes, 2007, 0) == 1 && LastQualifying(changes, 2007) == 3
  {
  }

  /** Nothing after the first change later than `year` affects the result, even
      changes at or before `year`. */
  lemma {:induction false} BreakIgnoresRest(prefix: seq<StatusChange>, c: StatusChange, rest: seq<StatusChange>, year: int, status: int)
    requires c.year > year
    ensures Scan(prefix + [c] + rest, year, status) == Scan(prefix, year, status)
  {
    if |prefix| > 0 {
      assert (prefix + [c] + rest)[1..] == prefix[1..] + [c] + rest;
      if prefix[0].year <= year {
        BreakIgnoresRest(prefix[1..], c, rest, year, prefix[0].status);
      }
    } else {
      assert (prefix + [c] + rest)[0] == c;
    }
  }

  /** On a sorted list, if change `i` is the last one at or before `year`, the
      result is its status; among several changes in the same year the later
      one therefore wins. */
  lemma LastChangeAtOrBeforeWins(changes: seq<StatusChange>, year: int, i: nat)
    requires Sorted(changes)
    requires i < |changes| && changes[i].year <= year
    requires i + 1 < |changes| ==> changes[i + 1].year > year
    ensures Scan(changes, year, 0) == changes[i].status
  {
    ScanIsLastOfPrefix(changes, year, 0);
    assert QualifyingPrefix(changes, year) == i + 1;
  }

  /** With distinct sorted years, each change's own year resolves to that change. */
  lemma StatusAtChangeYear(ds: LegalDataset, state: string, i: nat)
    requires state in ds.states
    requires StrictlySorted(ds.states[state])
    requires i < |ds.states[state]|
    ensures GetStatusForYear(state, ds.states[state][i].year, ds) == ds.states[state][i].status
  {
    var changes := ds.states[state];
    LastChangeAtOrBeforeWins(changes, changes[i].year, i);
  }

  /** At or after the last change of a sorted list the status sticks. */
  lemma StatusSticksAfterLastChange(ds: LegalDataset, state: string, year: int)
    requires state in ds.states && |ds.states[state]| > 0
    requires Sorted(ds.states[state])
    requires year >= ds.states[state][|ds.states[state]| - 1].year
    ensures GetStatusForYear(state, year, ds) == ds.states[state][|ds.states[state]| - 1].status
  {
    var changes := ds.states[state];
    LastChangeAtOrBeforeWins(changes, year, |changes| - 1);
  }

  /** On a sorted list the resolved status is a step function of the year: a later
      year never resolves to an earlier change. */
  lemma QualifyingPrefixMonotone(changes: seq<StatusChange>, y1: int, y2: int)
    requires Sorted(changes)
    requires y1 <= y2
    ensures QualifyingPrefix(changes, y1) <= QualifyingPrefix(changes, y2)
  {
    var k1, k2 := QualifyingPrefix(changes, y1), QualifyingPrefix(changes, y2);
  }

  /** The dataset of the resolver's unit tests. */
  const Sample := LegalDataset(Str("Test Factor"),
    Obj([Field("Illegal", Num(0)), Field("Legal with restrictions", Num(1)), Field("Fully legal", Num(2))]),
    map[
      "AL" := [],
      "CA" := [StatusChange(2000, 1)],
      "NY" := [StatusChange(1990, 1), StatusChange(2005, 2), StatusChange(2015, 1), StatusChange(2020, 2)]])

  /** NY, with four changes, over every year: 0 before 1990, then 1, 2, 1 and 2
      from each change year up to the next. */
  lemma SampleResolutionsNY()
    ensures forall y :: y < 1990 ==> GetStatusForYear("NY", y, Sample) == 0
    ensures forall y :: 1990 <= y < 2005 ==> GetStatusForYear("NY", y, Sample) == 1
    ensures forall y :: 2005 <= y < 2015 ==> GetStatusForYear("NY", y, Sample) == 2
    ensures forall y :: 2015 <= y < 2020 ==> GetStatusForYear("NY", y, Sample) == 1
    ensures forall y :: 2020 <= y ==> GetStatusForYear("NY", y, Sample) == 2
  {
    var ny := Sample.states["NY"];
    assert Sorted(ny);
    forall y | 1990 <= y < 2005 ensures GetStatusForYear("NY", y, Sample) == 1 {
      LastChangeAtOrBeforeWins(ny, y, 0);
    }
    forall y | 2005 <= y < 2015 ensures GetStatusForYear("NY", y, Sample) == 2 {
      LastChangeAtOrBeforeWins(ny, y, 1);
    }
    forall y | 2015 <= y < 2020 ensures GetStatusForYear("NY", y, Sample) == 1 {
      LastChangeAtOrBeforeWins(ny, y, 2);
    }
    forall y | 2020 <= y ensures GetStatusForYear("NY", y, Sample) == 2 {
      LastChangeAtOrBeforeWins(ny, y, 3);
    }
  }

  /** CA, with one change, AL, with none, a state the dataset lacks, and a
      dataset with no states at all, over every year. */
  lemma SampleResolutionsOthers()
    ensures forall y :: y < 2000 ==> GetStatusForYear("CA", y, Sample) == 0
    ensures forall y :: 2000 <= y ==> GetStatusForYear("CA", y, Sample) == 1
    ensures forall y :: GetStatusForYear("AL", y, Sample) == 0
    ensures forall y :: GetStatusForYear("XX", y, Sample) == 0
    ensures forall y :: GetStatusForYear("CA", y, LegalDataset(Str("Empty"), Obj([]), map[])) == 0
  {
    var ca := Sample.states["CA"];
    forall y | 2000 <= y ensures GetStatusForYear("CA", y, Sample) == 1 {
      LastChangeAtOrBeforeWins(ca, y, 0);
    }
  }
}

=== FILE: upload_scenario.dfy ===
/**
 The same-sex-marriage upload of the end-to-end tests, followed from the file
 to the map: the file loads, and every state it lists resolves to status 2,
 which the map draws in the status-0 colour.
 */
module UploadScenario {
  import opened Wrappers
  import opened JsValues
  import opened TimelineTypes
  import opened Store
  import opened StoreRoundTrip
  import opened LegalMap

  const MarriageFactor: JsValue := Str("Same-Sex Marriage Legal Status")

  const MarriageEntries: seq<RawEntry> := [
    RawEntry("Massachusetts", [RawChange(2003, Str("legal"))]),
    RawEntry("California", [RawChange(2013, Str("legal"))]),
    RawEntry("New York", [RawChange(2011, Str("legal"))])]

  /** The timeline the upload is expected to produce: "legal" coded as 2. */
  const MarriageTimeline: StateTimeline := map[
    "Massachusetts" := [StatusChange(2003, 2)],
    "California" := [StatusChange(2013, 2)],
    "New York" := [StatusChange(2011, 2)]]

  const MarriageDataset: LegalDataset := LegalDataset(MarriageFactor, DefaultCategories, MarriageTimeline)

  function MarriageFile(): JsValue {
    LegacyFile(MarriageFactor, Str("Same-Sex Marriage Legalization in the United States"), Absent, MarriageEntries)
  }

  /** Coding the entries turns each "legal" status into 2 and keeps the years. */
  lemma MarriageTimelineCoded()
    ensures RawEntries(MarriageEntries)
    ensures ToTimeline(CodedEntries(MarriageEntries)) == MarriageTimeline
  {
    var entries := MarriageEntries;
    assert RawEntries(entries);
    var coded := CodedEntries(entries);
    assert coded[0] == StateEntry("Massachusetts", [StatusChange(2003, 2)]);
    assert coded[1] == StateEntry("California", [StatusChange(2013, 2)]);
    assert coded[2] == StateEntry("New York", [StatusChange(2011, 2)]);
    assert coded[..1][..0] == [];
    assert ToTimeline(coded[..1]) == map["Massachusetts" := [StatusChange(2003, 2)]];
    assert coded[..2][..1] == coded[..1];
    assert ToTimeline(coded[..2]) == ToTimeline(coded[..1])["California" := [StatusChange(2013, 2)]];
    assert coded[..3][..2] == coded[..2] && coded[..3] == coded;
    assert ToTimeline(coded) == ToTimeline(coded[..2])["New York" := [StatusChange(2011, 2)]];
  }

  /** The file loads, and the dataset it yields is the expected timeline under
      the file's own factor and the default categories. */
  lemma MarriageUploadLoads(st: AppStore)
    ensures LoadDatasetFile(st, MarriageFile()).1 == Pass
    ensures ValidateDataset(ConvertDatasetFormat(MarriageFile()).value)
      == Success(MarriageDataset)
  {
    MarriageTimelineCoded();
    LegacyFileLoads(st, MarriageFactor, Str("Same-Sex Marriage Legalization in the United States"),
      Absent, MarriageEntries);
    var v := MarriageFile();
    assert v.fields[0].key == "factor";
    assert Get(v, "factor") == MarriageFactor;
  }

  /** In 2013 Massachusetts has status 2, and a lookup under that key gives the
      status-0 colour, the same as a state the file does not list. The map itself
      looks each shape up by its FIPS code (`geo.id`), and this file keys its
      states by name, so no shape matches: Massachusetts' shape, FIPS "25", is
      drawn in the status-0 colour for lack of data. */
  lemma MarriageDrawsLegalAsIllegal()
    ensures MarriageDataset.states.Keys == {"Massachusetts", "California", "New York"}
    ensures GetStatusForYear("Massachusetts", 2013, MarriageDataset) == 2
    ensures GeographyFill("Massachusetts", 2013, MarriageDataset) == IllegalColor
    ensures GeographyFill("Texas", 2013, MarriageDataset) == IllegalColor
    ensures "25" !in MarriageDataset.states && GeographyFill("25", 2013, MarriageDataset) == IllegalColor
  {
    assert QualifyingPrefix(MarriageDataset.states["Massachusetts"], 2013) == 1;
  }
}

=== FILE: wrappers.dfy ===
/** Failure-compatible wrappers shared by the loader and the store. */
module Wrappers {

  /** An optional value: the store's `dataset: LegalDataset | null`. */
  datatype Option<+T> = None | Some(value: T)

  /** The value a throwing JavaScript function returns, or the error it throws. */
  datatype Result<+R, +E> = Success(value: R) | Failure(error: E) {
    predicate IsFailure() {
      Failure?
    }

    function PropagateFailure<U>(): Result<U, E>
      requires Failure?
    {
      Failure(error)
    }

    function Extract(): R
      requires Success?
    {
      value
    }
  }

  /** The settlement of a `Promise<void>`: resolved, or rejected with an error. */
  datatype Outcome<+E> = Pass | Fail(error: E)
}
